=== FILE: README.md ===
# MonoCalendar in Dafny

A Dafny model of the core of MonoCalendar, a single-page content planner for creators. It covers:

- The onboarding wizard that builds a brand profile in six steps:
  - brand type
  - platform
  - name
  - posting days
  - content pillars with descriptions
  - persona and visual style
- The settings panel, which edits a draft of that profile and hands it over on save.
- The weekly calendar:
  - the Sunday-to-Saturday skeleton
  - the merge of the language model's plan onto it
  - loading, regenerating and editing the week
  - the rule that hides the theme on non-posting days
- The day planner's posted/pending toggle.
- The chat assistant's transcript:
  - the greeting
  - each send with its reply or error
  - the Enter key
  - the platform's preset prompts
- The prompt fragments built from the profile, and the check on the plan response.

Modelling conventions:

- Everything is a pure function over immutable datatypes.
- Calendar dates are day numbers. Day 0 is a Sunday, and the weekday of day `n` is `n % 7`.
- Each remote call becomes an outcome parameter:
  - the parsed plan, or `None` when generation throws;
  - the chat reply, or a failure.
- Clock readings are passed in as integers.
- `String.prototype.trim` is modelled with the exact ECMAScript whitespace set.
- `Array.prototype.sort` without a comparator is modelled as a sort under the string order of the numbers. The model proves that this agrees with numeric order on weekday indices, and shows that it does not beyond one digit.

The model follows the code as written, including where it misbehaves:

- A failed chat greeting leaves the transcript empty, so the user's own message can come first (`Chat.FailedGreetingLetsUserGoFirst`).
- Marking a day posted hands the chat a new plan object. The chat's session effect then runs again, and its greeting replaces the whole transcript (`DayPlanner.ClickPostedButton`).
- The wizard's pillar removal can leave the edit overlay on an index past the end of the list, and the overlay then fails to render. The wizard model (`Onboarding.Apply`) reports that failure; the corrected removal is modelled beside it (see Findings).

The files follow the program's structure:

| file | contents |
|---|---|
| `wrappers.dfy` | `Option` and `Result` |
| `text.dfy` | trim, blank test, join and its inverse split |
| `sorting.dfy` | the default sort |
| `lists.dfy` | the two `filter` shapes |
| `types.dfy` | the records |
| `posting_days.dfy` | day toggles |
| `pillars.dfy` | pillar list rules |
| `onboarding.dfy` | the wizard |
| `settings.dfy` | the settings panel |
| `calendar.dfy` | the week and its operations |
| `day_planner.dfy` | the posted toggle |
| `chat.dfy` | the chat transcript |
| `prompts.dfy` | prompt fragments and the response check |

## Model

| member | source | states |
|---|---|---|
| Text.Trim | components/Onboarding.tsx:37 | `trim()` gives the slice of the input after its leading and before its trailing whitespace. Everything cut off is whitespace, and the result neither starts nor ends with whitespace. |
| Text.BlankIffAllWhitespace | components/Onboarding.tsx:37 | A name is rejected as empty after trimming exactly when every character is whitespace (both directions). |
| Text.TrimIdempotent | components/Settings.tsx:37-40 | Trimming an already trimmed name changes nothing, so a stored pillar name is its own trimmed form. |
| Text.Join | services/geminiService.ts:12 | `join` of a single part is that part. |
| Text.SplitJoin | services/geminiService.ts:11-12 | Joined lists can be read back. Cutting `parts.join(sep)` at `sep` returns the parts whenever no part contains the separator's first character. |
| Sorting.DefaultSort | components/Settings.tsx:31-32 | `sort()` without a comparator returns a permutation of its input (same multiset) that is ordered under the string comparison of the numbers. |
| Sorting.DigitOrderIsNumeric | components/Settings.tsx:31-32 | For numbers 0..9 the string order used by `sort()` coincides with numeric order (both directions). |
| Sorting.TenSortsBeforeNine | components/Settings.tsx:31-32 | Beyond one digit the orders part: 10 sorts before 9. |
| Sorting.SortedDigitsAscend | components/Settings.tsx:31-32 | A default-sorted list of single-digit numbers is in ascending numeric order. |
| Lists.RemoveAt | components/Settings.tsx:55 | `filter((_, i) => i !== index)` drops exactly position `index`. Earlier elements keep their index and later ones move down by one. An index outside the list removes nothing. |
| Lists.RemoveAtInverse | components/Settings.tsx:55 | Removing the element just inserted at an index gives back the original list. |
| Lists.RemoveAll | components/Onboarding.tsx:32 | `filter(d => d !== index)` removes every copy of the value and keeps all others in their original order (the result is a subsequence of the input). The multiset is the input's with that value's count set to zero. |
| Lists.RemoveAllAbsent | components/Onboarding.tsx:32 | Filtering out an absent value returns the list unchanged. |
| PostingDays.Toggle | components/Onboarding.tsx:30-34 | The wizard's day toggle flips membership of that index only. A new day is appended at the end; a present day is removed entirely. Distinctness and the 0..6 range are preserved. |
| PostingDays.ToggleTwiceSameSet | components/Onboarding.tsx:30-34 | Toggling the same day twice restores the set of days. |
| PostingDays.ToggleTwiceRestores | components/Onboarding.tsx:30-34 | Starting from an unchecked day, toggling it twice restores the exact list. |
| PostingDays.ToggleSorted | components/Settings.tsx:27-34 | The settings toggle flips membership of that index only. The result is sorted under the default sort, and distinct weekday indices stay distinct weekday indices. |
| PostingDays.SortedDaysAscend | components/Settings.tsx:31-32 | Default-sorted weekday indices are in ascending numeric order. |
| Pillars.AddNamed | components/Onboarding.tsx:251-256 | A suggestion is appended with an empty description unless a pillar of exactly that name exists. The name is present afterwards, and distinct names stay distinct. |
| Pillars.Add | components/Settings.tsx:36-44 | A typed pillar: a blank input changes nothing; otherwise the trimmed name is added unless already present. Any added pillar has a non-blank, already-trimmed name and an empty description. Names stay distinct. |
| Pillars.AddIdempotent | components/Onboarding.tsx:36-41 | Adding the same input twice has the effect of adding it once. |
| Pillars.Remove | components/Settings.tsx:52-57 | Removing pillar `i` takes exactly that pillar out of the multiset, keeps the others in order, and keeps names distinct. |
| Pillars.Update | components/Settings.tsx:46-50 | `updatePillar(i, field, value)` sets that one field of pillar `i`. Every other pillar and the other field are unchanged. |
| Pillars.UpdateDescriptionKeepsNames | components/Onboarding.tsx:55-62 | Editing a description keeps pillar names distinct. |
| Pillars.UpdateNameCanDuplicate | components/Settings.tsx:46-50 | Editing a name is unchecked: it can create two pillars with the same name, which no add path allows. |
| Onboarding.Start | components/Onboarding.tsx:13-28 | The wizard opens on step 1 with no brand type, no platform, no pillars, no days and no open edit, and it satisfies the wizard invariant. |
| Onboarding.ToggleDay | components/Onboarding.tsx:30-34 | A day checkbox flips that day's membership and changes nothing else in the wizard. |
| Onboarding.AddPillar | components/Onboarding.tsx:36-41 | The typed pillar is added under the trimmed-unique rule. The input box is cleared exactly when a pillar was added; otherwise the wizard is unchanged. |
| Onboarding.AddSuggestion | components/Onboarding.tsx:251-256 | A suggestion chip appends its pillar with an empty description when no pillar has that name, and otherwise changes nothing. It never touches the input box or the rest of the wizard. |
| Onboarding.RemovePillarAsWritten | components/Onboarding.tsx:43-48 | As written, the pillar is removed and the edit overlay closes only when it showed that very index. |
| Onboarding.RemoveAsWrittenDangles | components/Onboarding.tsx:43-48 | As written, a removal leaves the overlay naming no pillar exactly when the last pillar is being edited and an earlier pillar is removed (both directions). |
| Onboarding.RemoveBeforeEditDangles | components/Onboarding.tsx:43-48 | Counterexample: removing an earlier pillar leaves the open edit pointing past the end, where saving throws. |
| Onboarding.RemoveBeforeEditRetargets | components/Onboarding.tsx:43-48 | Counterexample: with more pillars, the open edit silently moves to the next pillar, and saving writes the description into the wrong pillar. |
| Onboarding.RemovePillar | components/Onboarding.tsx:43-48 | Corrected removal: the same pillar list, and an open edit of a later pillar follows it down one place. |
| Onboarding.RemoveKeepsEditTarget | components/Onboarding.tsx:43-48 | With the correction, the overlay closes exactly when its own pillar is removed. Otherwise it still names the same pillar, within range. |
| Onboarding.OpenPillarEdit | components/Onboarding.tsx:50-53 | Opening an edit succeeds exactly for an existing index (otherwise reading `pillars[index]` throws). The draft description is that pillar's description. |
| Onboarding.SavePillarEdit | components/Onboarding.tsx:55-62 | With no edit open nothing happens. Otherwise saving succeeds exactly when the index names a pillar; it then sets only that pillar's description and closes the overlay. |
| Onboarding.Emit | components/Onboarding.tsx:70-81 | The completed profile carries the answers as given, the days default-sorted (same multiset), empty extra notes and `isOnboarded` set. |
| Onboarding.HandleNext | components/Onboarding.tsx:64-83 | Next advances exactly one step when the current step's answer is present (trimmed non-blank name, persona and visual style; non-empty days and pillars). Otherwise nothing changes. A profile is emitted exactly at step 6 with its answers present, and the wizard keeps the days sorted in place. |
| Onboarding.ApplyAnswer | components/Onboarding.tsx:115-327 | Each answer control sets its own field while its step shows (brand on step 1, platform on 2, name on 3, persona and style on 6), changes nothing else, and does nothing on any other step. The wizard's invariant is kept. |
| Onboarding.ApplyPillarEvent | components/Onboarding.tsx:193-298 | The controls of the pillar step, each doing exactly its handler's work: typing sets the input box, Add and the suggestion chips add a pillar, clicking a chip opens its overlay, typing in the overlay sets the draft description, Save Details saves it and the close button closes it. Removal is the code's. An action fails exactly when it is a removal that leaves the overlay naming no pillar, whose title at line 274 then cannot render. Every other action keeps the invariant. |
| Onboarding.ApplyNext | components/Onboarding.tsx:64-83 | Next keeps the invariant, including distinct weekday indices after the in-place sort. |
| Onboarding.Apply | components/Onboarding.tsx:103-352 | One user action, routed to its control. Next is `handleNext`. A day box toggles its day on step 4. The answer controls go to `ApplyAnswer`, and the pillar controls to `ApplyPillarEvent` on step 5. A control the current step does not show does nothing. The result either keeps the invariant (each passed step has its answer, and an open edit names a pillar) or fails, exactly on a pillar-step removal that leaves the overlay naming no pillar. The step changes only through Next, by exactly one. |
| Onboarding.RemoveBeforeLastEditFails | components/Onboarding.tsx:43-48 | Removing any pillar before the last one while the last one's overlay is open is an action that fails. |
| Onboarding.RemoveBeforeEditFails | components/Onboarding.tsx:43-48 | That failure is reachable: a wizard with all earlier answers and three pillars, editing the third, fails when the first is removed. |
| Onboarding.ApplyOther | components/Onboarding.tsx:64-83 | Next, the day boxes and the answer controls never fail. Next is `handleNext`, a day box toggles its day only on step 4, and each answer control is `ApplyAnswer`. The invariant is kept. |
| Onboarding.ApplyCorrected | components/Onboarding.tsx:43-48 | With the corrected removal every action keeps the invariant and none fails. Other actions behave exactly as the code does, and every action leaves the same pillar list as the code. |
| Onboarding.Run | components/Onboarding.tsx:103-352 | A series of actions stops at the first failure. Every wizard it reaches satisfies the invariant. |
| Onboarding.OnlyRemovalFails | components/Onboarding.tsx:43-48 | A series of actions without a pillar removal never fails. |
| Onboarding.RunKeepsStepOrder | components/Onboarding.tsx:64-69 | Over any series of actions that does not fail, the step never goes back and never passes 6. |
| Onboarding.StepBoundedByNextClicks | components/Onboarding.tsx:64-69 | The step rises by at most the number of Next clicks. |
| Onboarding.EmittedDaysAscend | components/Onboarding.tsx:75 | The emitted posting days are exactly the checked days: as many, distinct, and in strictly ascending numeric order. |
| Onboarding.CompletedProfileIsComplete | components/Onboarding.tsx:70-81 | On step 6 with persona and visual style filled in, Next emits a profile, and every such profile is complete. It has a non-blank name, persona and visual style, and at least one posting day, all distinct weekday indices in ascending order. It has at least one pillar, with distinct names. Its extra notes are empty and it is marked onboarded. |
| Settings.Open | components/Settings.tsx:17 | The draft starts as the incoming profile. |
| Settings.ApplyEdit | components/Settings.tsx:106-206 | Typing into the name, persona, visual style or extra-notes box replaces that field only, and the box then shows exactly the typed text. Every other field, as shown and as stored, is unchanged. |
| Settings.EditsCommute | components/Settings.tsx:106-130 | Edits of different fields commute. |
| Settings.LastEditWins | components/Settings.tsx:106-130 | Of two edits to one field only the last counts. |
| Settings.EditBackRestores | components/Settings.tsx:205-206 | Typing back what a field shows restores the draft. The exception is missing extra notes, which become present and empty. |
| Settings.ToggleDay | components/Settings.tsx:27-34 | A day checkbox flips that day and leaves the days sorted. Nothing else in the draft changes. |
| Settings.AddPillar | components/Settings.tsx:36-44 | The typed pillar follows the same trimmed-unique rule as the wizard. The input clears exactly when a pillar was added. |
| Settings.UpdatePillar | components/Settings.tsx:46-50 | Editing pillar `i` changes exactly that field of that pillar in the draft. |
| Settings.RemovePillar | components/Settings.tsx:52-57 | The trash button takes out exactly pillar `i`, keeping the rest in order. |
| Settings.HandleSave | components/Settings.tsx:22-25 | Save hands the draft to the application and closes the panel. |
| Settings.Step | components/Settings.tsx:15-57 | On an open panel each control does exactly its handler's work: typing sets the new-pillar box, Add adds the typed pillar, a day box toggles its day, a pillar row edit or trash button changes that pillar, a text field edit replaces that field, Save hands over the draft, and Close closes. Saving happens exactly on Save on an open panel, and it saves the draft. A closed panel ignores everything. |
| Settings.OpenThenSave | components/Settings.tsx:17-25 | Opening on a profile and saving straight away hands back that profile. |
| Settings.EditThenSave | components/Settings.tsx:17-25 | Opening on a profile, editing one field and saving hands over exactly that profile with that edit. |
| Settings.ClosedSavesNothing | components/Settings.tsx:20 | A closed panel saves nothing, whatever follows. |
| Settings.SavesAtMostOnce | components/Settings.tsx:22-25 | Saving closes the panel, so one session hands over at most one profile. |
| Settings.UnsavedEditsDiscarded | components/Settings.tsx:17-25 | Without Save no edit reaches the application. |
| Settings.StepKeepsDays | components/Settings.tsx:27-34 | Every action keeps the draft's days distinct weekday indices. |
| Settings.SavedDaysWellFormed | components/Settings.tsx:22-34 | Every saved profile has distinct weekday indices when the profile the panel was opened on did. |
| Calendar.WeekAnchor | components/CalendarView.tsx:21-24 | The week starts at the Sunday on or before the day, at most six days earlier. |
| Calendar.WeekDates | components/CalendarView.tsx:18-32 | The skeleton is seven consecutive dates starting on a Sunday, and it contains the day it was built from. |
| Calendar.SameAnchorIffSameWeek | components/CalendarView.tsx:18-32 | Two days have the same week start exactly when one lies in the other's seven dates. |
| Calendar.Find | components/CalendarView.tsx:58 | `find` returns the first entry with the offset, and nothing exactly when no entry has it. |
| Calendar.MergeWeek | components/CalendarView.tsx:57-65 | The merged week has seven plans dated from the anchor, none posted. A day takes the first matching entry's theme and description, or the rest-day placeholder when none matches. |
| Calendar.MergeIgnoresOutOfRange | components/CalendarView.tsx:57-65 | Entries with an offset outside 0..6 do not affect the week. |
| Calendar.MergeIgnoresLaterDuplicates | components/CalendarView.tsx:58 | A later entry for an offset that already has one does not affect the week. |
| Calendar.MergeDatesDistinct | components/CalendarView.tsx:57-65 | The seven dates of a merged week are pairwise distinct, so the date works as a key. |
| Calendar.GenerateNewWeek | components/CalendarView.tsx:51-74 | On success the merged week for today's week replaces both the shown and the stored week. On failure neither changes. Loading ends either way. |
| Calendar.RegenerateForgetsEdits | components/CalendarView.tsx:57-67 | Regenerating does not depend on the previous week, so earlier edits and posted flags are lost. |
| Calendar.LoadPlans | components/CalendarView.tsx:34-49 | A stored week is shown as stored, even an empty one. Only when nothing is stored is a week generated, and then the result is exactly `generateNewWeek`'s. |
| Calendar.GeneratedWeekReloads | components/CalendarView.tsx:34-67 | A generated week survives a reload: any later load shows exactly that merged week, whatever the state and the model's answer. |
| Calendar.GenerateFromCompletion | services/geminiService.ts:80-82 | The model's answer fed into `generateNewWeek`: a thrown call or a missing or empty text leaves the shown and stored week unchanged, and a text the parser accepts becomes the merged week, shown and stored. |
| Calendar.HandleUpdatePlan | components/CalendarView.tsx:81-86 | Every plan with the updated date is replaced, all others are kept in place, the same list is stored, and the planner shows the update. |
| Calendar.UpdateIdempotent | components/CalendarView.tsx:81-86 | Repeating an update changes nothing further. |
| Calendar.DisplayCard | components/CalendarView.tsx:111-146 | A card shows theme and description exactly when the date's weekday is a posting day, and a bare rest card otherwise. |
| Calendar.InactiveDayHidesTheme | components/CalendarView.tsx:137-146 | On a non-posting day, plans for the same date display identically, whatever their themes. |
| DayPlanner.TogglePosted | components/DayPlanner.tsx:54 | The button flips the posted flag (an absent flag counts as not posted) and leaves date, theme and description alone. |
| DayPlanner.ToggleTwice | components/DayPlanner.tsx:54 | Toggling twice restores a plan whose flag was set, and settles an absent flag on "not posted". |
| DayPlanner.ToggleChangesOnlyThatDay | components/CalendarView.tsx:81-86 | In a week with distinct dates, handing the toggled plan to the calendar changes that day only, and stores the result. |
| DayPlanner.ToggleInGeneratedWeek | components/DayPlanner.tsx:54 | In a freshly generated week, toggling a day marks it posted and leaves the other six untouched. |
| DayPlanner.ClickPostedButton | components/DayPlanner.tsx:54-72 | The posted button hands the toggled plan to `handleUpdatePlan`, which puts it into the shown and stored week and makes it the selected day. It also restarts the chat with a live session: a greeting reply leaves exactly one `init` message, and a failed greeting keeps the transcript. |
| DayPlanner.PostedButtonDiscardsConversation | components/ChatInterface.tsx:21-44 | After any accepted send, a greeted restart from the posted button leaves one message, and no message of the user's survives. |
| Chat.Open | components/ChatInterface.tsx:15-18 | The chat starts with an empty transcript, an empty input, not loading, and a live session. |
| Chat.Greet | components/ChatInterface.tsx:26-42 | A reply replaces the transcript with one model message with id `init` (the reply text, or the fallback when it is empty). A failure leaves the transcript as it was. Loading ends either way. |
| Chat.Restart | components/ChatInterface.tsx:21-44 | The session effect gives a live session and ends loading, keeping the input. A greeting reply replaces the transcript with the single `init` message; a failed greeting keeps it. |
| Chat.BeginSend | components/ChatInterface.tsx:50-56 | A blank text or a missing session does nothing. Otherwise the untrimmed text is appended as a user message, the input clears and loading starts. |
| Chat.ReplyText | components/ChatInterface.tsx:60-72 | The model message is the reply text, the fallback for an empty reply, or the connection error when the call throws; never empty. |
| Chat.CompleteSend | components/ChatInterface.tsx:58-75 | Exactly one model message is appended after the existing transcript, and loading ends. |
| Chat.SendMessage | components/ChatInterface.tsx:50-76 | An accepted send appends exactly the user message and then one model message. The earlier transcript is kept as a prefix. A rejected send changes nothing. |
| Chat.HandleKeyDown | components/ChatInterface.tsx:78-83 | Enter without Shift is exactly a send of the current input, with all of `SendMessage`'s guarantees. Any other key changes nothing. |
| Chat.RunAppendOnly | components/ChatInterface.tsx:50-76 | Over any series of sends the transcript is only ever appended to. |
| Chat.RunGrowth | components/ChatInterface.tsx:50-76 | Each non-blank send adds exactly two messages, and blank ones add none. |
| Chat.RunUserTexts | components/ChatInterface.tsx:50-76 | The user messages of the transcript are the earlier ones followed by exactly the non-blank texts sent, in order. |
| Chat.GreetingStaysFirst | components/ChatInterface.tsx:32-36 | After a successful greeting the first message stays the model's `init` message, whatever is sent. |
| Chat.FailedGreetingLetsUserGoFirst | components/ChatInterface.tsx:37-39 | When the greeting fails, the first message can be the user's. |
| Chat.Presets | components/ChatInterface.tsx:86-106 | There are four presets and the first is always "Brainstorm Ideas". |
| Chat.PresetsDifferByPlatform | components/ChatInterface.tsx:91-105 | Apart from the first, no preset is shared between the two platforms. |
| Chat.PresetSendAddsExchange | components/ChatInterface.tsx:117 | Every preset prompt is non-blank, so clicking a preset on a live session always appends that prompt as a user message and then a reply. |
| Prompts.DayName | services/geminiService.ts:11-12 | An index 0..6 names its weekday; any other index renders as the empty string. No name contains a comma. |
| Prompts.ActiveDays | services/geminiService.ts:11-12 | The "Active Days" line is empty for no days. Otherwise, cut at ", ", it gives back the names of the posting days in list order. |
| Prompts.PlanPillarLine | services/geminiService.ts:16 | A plan prompt line is `- name: ` followed by the description, or "No specific details." when that is empty. |
| Prompts.PlanPillarsContext | services/geminiService.ts:15-17 | The plan prompt's pillar block is empty for no pillars. Otherwise it has exactly one line per pillar, in order, as long as names and descriptions are single-line. |
| Prompts.ChatPillarEntry | services/geminiService.ts:91 | A chat entry is the name, " (", the description and ")", with no stock text. |
| Prompts.ChatPillarsContext | services/geminiService.ts:90-92 | The chat format list is empty for no pillars. Otherwise, cut at ", ", it gives back one entry per pillar when no name or description has a comma. |
| Prompts.EmptyDescriptionRendering | services/geminiService.ts:15-17 | An empty description reads "No specific details." in the plan prompt but "()" in the chat instruction. |
| Prompts.AdditionalContext | services/geminiService.ts:28 | The extra notes are shown as given when present and non-empty, and as "None provided." otherwise; never empty. |
| Prompts.ScriptHint | services/geminiService.ts:119 | YouTube gets the hook/intro/value/CTA layout, and Instagram the visual-hook/audio/caption layout (both directions). |
| Prompts.WeeklyPlanResult | services/geminiService.ts:80-82 | A thrown call, or a missing or empty text, yields no plan. A non-empty text is always handed to the parser, and the parser's result is the outcome. A plan is produced only that way. |

## Left out

- Real dates. The two clock reads (`new Date()`), local-time versus UTC (`toISOString` keys), month boundaries and the "today" ring are replaced by integer day numbers.
- JSON. Serialisation and parsing of the stored week and of the model response are left out. The stored week is kept as a decoded value, and a parse that throws counts as a failed generation.
- Rendering. The JSX markup, `components/UI.tsx`, the settings tabs, scrolling and focus are left out. `App.tsx`'s wiring is not part of this model.
- Settings lifecycle. `App.tsx` never mounts the settings panel, so how the draft outlives a close and reopen is not modelled. Each session opens on the incoming profile.
- Concurrency. Asynchronous interleavings are left out: an Enter press while a reply is pending, the presets' `disabled` while loading, and a greeting reply that arrives while a send is pending. Every send and every greeting completes before the next action.
- Chat.SendMessage: does not model that message ids from `Date.now()` may collide. Ids are the clock readings passed in.
- Fields and SDK. The `isLoading` field of chat messages, the `pillar` field of plans and of the response schema, the model name, the full prompt templates and the Gemini SDK are left out.
- Pillars.Update: requires an existing index. An out-of-range index would leave a hole in the JavaScript array, but only rendered rows call it.
- Settings.UpdatePillar: requires an existing index, for the same reason.
- Onboarding.HandleNext: requires brand type and platform at step 6. The wizard invariant guarantees both, and the code's non-null assertions assume them.
- Text.Trim: works on Unicode scalar values where JavaScript strings are UTF-16 code units. Every character `trim` strips is a single code unit, so the results agree.
- Onboarding.Apply: follows `handleNext`'s trimmed checks rather than the Next button's `disabled` expression. The button's expression tests the raw name, persona and style, which only changes whether a click that does nothing is possible.

## Findings

| source | as written | input that shows it | evidently intended | confidence | as-written member | corrected member |
|---|---|---|---|---|---|---|
| components/Onboarding.tsx:43-48 | `removePillar` clears the edit index only when it equals the removed index, so an edit of a later pillar keeps its old index | pillars Vlogs, Skits, Q&A with Q&A's edit open (index 2), then remove index 0 (the remove button reached by keyboard while the overlay is open): the index points past the end and the overlay title and save throw; with a fourth pillar the save writes into the wrong pillar | an open edit follows its pillar down one place, or closes when its own pillar goes; the wizard then never fails (`Onboarding.ApplyCorrected`) | medium, not executed | Onboarding.RemovePillarAsWritten | Onboarding.RemovePillar |

=== FILE: calendar.dfy ===
/** The calendar view: the Sunday-to-Saturday skeleton, the merge of the model's plan onto it,
    loading, regenerating and editing the week, and the active-day display rule. The stored
    week (`mono_plans`) is part of the state. */
module Calendar {
  import opened Wrappers
  import opened Types
  import Prompts

  const RestTheme := "Rest Day"
  const RestDescription := "No content scheduled for today."

  function Weekday(d: Day): (w: int)
    ensures 0 <= w < 7
  {
    d % 7
  }

  /** The Sunday on or before `d`: `d` minus its weekday. */
  function WeekAnchor(d: Day): (a: Day)
    ensures Weekday(a) == 0
    ensures a <= d < a + 7
  {
    d - Weekday(d)
  }

  /** The seven dates of the week that holds `d`, Sunday first. */
  function WeekDates(d: Day): (r: seq<Day>)
    ensures |r| == 7
    ensures r[0] == WeekAnchor(d) && Weekday(r[0]) == 0
    ensures forall i :: 0 <= i < 6 ==> r[i + 1] == r[i] + 1
    ensures d in r
  {
    var a := WeekAnchor(d);
    var r := seq(7, i => a + i);
    assert r[d - a] == d;
    r
  }

  /** Every day of one week has the same anchor, so re-anchoring is idempotent. */
  lemma {:induction false} SameWeekSameAnchor(d: Day, k: int)
    requires 0 <= k < 7
    ensures WeekAnchor(WeekAnchor(d) + k) == WeekAnchor(d)
  {
    var a := WeekAnchor(d);
    assert a % 7 == 0;
    assert (a + k) % 7 == k by {
      assert a == (a / 7) * 7;
      assert a + k == (a / 7) * 7 + k;
    }
  }

  /** Two days share an anchor exactly when one lies in the other's week. */
  lemma {:induction false} SameAnchorIffSameWeek(d: Day, e: Day)
    ensures WeekAnchor(d) == WeekAnchor(e) <==> d in WeekDates(e)
  {
    var a := WeekAnchor(e);
    if WeekAnchor(d) == a {
      assert WeekDates(e)[d - a] == d;
    }
    if d in WeekDates(e) {
      var k :| 0 <= k < 7 && WeekDates(e)[k] == d;
      SameWeekSameAnchor(e, k);
    }
  }

  /** `plans.find(p => p.dayOffset === offset)`: the first entry with that offset. */
  function Find(entries: seq<PlanEntry>, offset: int): (r: Option<PlanEntry>)
    ensures r.None? <==> forall k :: 0 <= k < |entries| ==> entries[k].dayOffset != offset
    ensures r.Some? ==> r.value in entries && r.value.dayOffset == offset
    ensures forall k ::
      (0 <= k < |entries| && entries[k].dayOffset == offset
       && (forall j :: 0 <= j < k ==> entries[j].dayOffset != offset)) ==> r == Some(entries[k])
    decreases |entries|
  {
    if |entries| == 0 then None
    else if entries[0].dayOffset == offset then Some(entries[0])
    else
      var r := Find(entries[1..], offset);
      assert forall k :: 1 <= k < |entries| ==> entries[k] == entries[1..][k - 1];
      r
  }

  /** The plan for the day `offset` days after `anchor`: the model's entry when it has one,
      otherwise the rest-day placeholder; never posted. */
  function MergeDay(anchor: Day, entries: seq<PlanEntry>, offset: int): DayPlan {
    match Find(entries, offset)
    case Some(e) => DayPlan(anchor + offset, e.theme, e.description, Some(false))
    case None => DayPlan(anchor + offset, RestTheme, RestDescription, Some(false))
  }

  /** The new week built from a successful generation. */
  function MergeWeek(anchor: Day, entries: seq<PlanEntry>): (r: seq<DayPlan>)
    ensures |r| == 7
    ensures forall i :: 0 <= i < 7 ==> r[i].date == anchor + i && r[i].isPosted == Some(false)
    ensures forall i, k ::
      (0 <= i < 7 && 0 <= k < |entries| && entries[k].dayOffset == i
       && (forall j :: 0 <= j < k ==> entries[j].dayOffset != i))
      ==> r[i].theme == entries[k].theme && r[i].description == entries[k].description
    ensures forall i ::
      (0 <= i < 7 && (forall k :: 0 <= k < |entries| ==> entries[k].dayOffset != i))
      ==> r[i].theme == RestTheme && r[i].description == RestDescription
  {
    seq(7, i => MergeDay(anchor, entries, i))
  }

  predicate InWeekRange(e: PlanEntry) {
    0 <= e.dayOffset < 7
  }

  /** Entries whose offset lies outside 0..6 are ignored by the merge. */
  lemma {:induction false} MergeIgnoresOutOfRange(anchor: Day, entries: seq<PlanEntry>, extra: PlanEntry, at: nat)
    requires !InWeekRange(extra) && at <= |entries|
    ensures MergeWeek(anchor, entries[..at] + [extra] + entries[at..]) == MergeWeek(anchor, entries)
  {
    var longer := entries[..at] + [extra] + entries[at..];
    forall i | 0 <= i < 7 ensures Find(longer, i) == Find(entries, i) {
      FindSkips(entries, extra, at, i);
    }
    assert forall i :: 0 <= i < 7 ==> MergeDay(anchor, longer, i) == MergeDay(anchor, entries, i);
  }

  lemma {:induction false} FindSkips(entries: seq<PlanEntry>, extra: PlanEntry, at: nat, offset: int)
    requires extra.dayOffset != offset && at <= |entries|
    ensures Find(entries[..at] + [extra] + entries[at..], offset) == Find(entries, offset)
    decreases at
  {
    var longer := entries[..at] + [extra] + entries[at..];
    if at == 0 {
      assert longer[1..] == entries;
    } else {
      assert longer[0] == entries[0];
      assert longer[1..] == entries[1..][..at - 1] + [extra] + entries[1..][at - 1..];
      FindSkips(entries[1..], extra, at - 1, offset);
    }
  }

  /** A later entry for an offset that already has one is ignored by the merge. */
  lemma {:induction false} MergeIgnoresLaterDuplicates(anchor: Day, entries: seq<PlanEntry>, extra: PlanEntry)
    requires exists k :: 0 <= k < |entries| && entries[k].dayOffset == extra.dayOffset
    ensures MergeWeek(anchor, entries + [extra]) == MergeWeek(anchor, entries)
  {
    forall i | 0 <= i < 7 ensures Find(entries + [extra], i) == Find(entries, i) {
      FindAppend(entries, [extra], i);
      if Find(entries, i).None? {
        assert extra.dayOffset != i;
        assert (entries + [extra])[|entries|] == extra;
      }
    }
    assert forall i :: 0 <= i < 7 ==> MergeDay(anchor, entries + [extra], i) == MergeDay(anchor, entries, i);
  }

  lemma {:induction false} FindAppend(entries: seq<PlanEntry>, more: seq<PlanEntry>, offset: int)
    ensures Find(entries, offset).Some? ==> Find(entries + more, offset) == Find(entries, offset)
    ensures Find(entries, offset).None? ==> Find(entries + more, offset) == Find(more, offset)
    decreases |entries|
  {
    if |entries| == 0 {
      assert entries + more == more;
    } else {
      assert (entries + more)[1..] == entries[1..] + more;
      FindAppend(entries[1..], more, offset);
    }
  }

  /** The seven merged dates are pairwise different, so each is a usable key. */
  lemma MergeDatesDistinct(anchor: Day, entries: seq<PlanEntry>)
    ensures forall i, j :: 0 <= i < j < 7 ==> MergeWeek(anchor, entries)[i].date != MergeWeek(anchor, entries)[j].date
  {
  }

  /** The calendar's state: the shown week, the stored week (absent until first saved), the
      loading flag and the day open in the planner. */
  datatype CalendarState = CalendarState(
    plans: seq<DayPlan>,
    stored: Option<seq<DayPlan>>,
    loading: bool,
    selected: Option<DayPlan>)

  /** `generateNewWeek`, with `today` the clock reading and `response` the parsed model
      result (`None` when the call throws). On success the merged week replaces both the shown
      and the stored week; on failure both are left as they were. */
  function GenerateNewWeek(s: CalendarState, today: Day, response: Option<seq<PlanEntry>>): (r: CalendarState)
    ensures !r.loading && r.selected == s.selected
    ensures response.None? ==> r.plans == s.plans && r.stored == s.stored
    ensures response.Some? ==> r.stored == Some(r.plans) && |r.plans| == 7
    ensures response.Some? ==> forall i :: 0 <= i < 7 ==>
      r.plans[i].date == WeekDates(today)[i] && r.plans[i].isPosted == Some(false)
    ensures response.Some? ==> r.plans == MergeWeek(WeekAnchor(today), response.value)
  {
    match response
    case None => s.(loading := false)
    case Some(entries) =>
      var week := MergeWeek(WeekAnchor(today), entries);
      s.(plans := week, stored := Some(week), loading := false)
  }

  /** The model's answer as `generateNewWeek` receives it: a thrown call, or a missing or empty
      text, leaves the shown and the stored week as they were; a text the parser accepts
      becomes the merged week. */
  lemma GenerateFromCompletion(s: CalendarState, today: Day, c: Prompts.Completion, parse: string -> Option<seq<PlanEntry>>)
    ensures var r := GenerateNewWeek(s, today, Prompts.WeeklyPlanResult(c, parse));
      && (c.Thrown? || c.text.None? || c.text.value == "" ==> r.plans == s.plans && r.stored == s.stored)
      && (c.Completed? && c.text.Some? && c.text.value != "" && parse(c.text.value).Some? ==>
            r.plans == MergeWeek(WeekAnchor(today), parse(c.text.value).value) && r.stored == Some(r.plans))
  {
  }

  /** Regeneration is destructive: the new week does not depend on the old one. */
  lemma RegenerateForgetsEdits(s: CalendarState, t: CalendarState, today: Day, entries: seq<PlanEntry>)
    ensures GenerateNewWeek(s, today, Some(entries)).plans == GenerateNewWeek(t, today, Some(entries)).plans
  {
  }

  /** `loadPlans`: a stored week is shown as it is, even an empty one; only when nothing is
      stored is a week generated. */
  function LoadPlans(s: CalendarState, today: Day, response: Option<seq<PlanEntry>>): (r: CalendarState)
    ensures !r.loading
    ensures s.stored.Some? ==> r.plans == s.stored.value && r.stored == s.stored
    ensures s.stored.None? && response.None? ==> r.plans == s.plans && r.stored.None?
    ensures s.stored.None? && response.Some? ==> |r.plans| == 7 && r.stored == Some(r.plans)
    ensures s.stored.None? ==> r == GenerateNewWeek(s.(loading := true), today, response)
  {
    match s.stored
    case Some(week) => s.(plans := week, loading := false)
    case None => GenerateNewWeek(s.(loading := true), today, response)
  }

  /** A generated week survives a reload: any later load, whatever the state and whatever the
      model would answer, shows exactly the week that was generated and stored. */
  lemma GeneratedWeekReloads(s: CalendarState, today: Day, entries: seq<PlanEntry>, t: CalendarState, later: Day, response: Option<seq<PlanEntry>>)
    ensures var g := GenerateNewWeek(s, today, Some(entries));
      LoadPlans(t.(stored := g.stored), later, response).plans == MergeWeek(WeekAnchor(today), entries)
  {
  }

  /** `handleUpdatePlan`: every plan with the updated plan's date is replaced by it, the rest
      are kept in place, and that same list is stored. */
  function HandleUpdatePlan(s: CalendarState, updated: DayPlan): (r: CalendarState)
    ensures |r.plans| == |s.plans|
    ensures forall k :: 0 <= k < |s.plans| && s.plans[k].date == updated.date ==> r.plans[k] == updated
    ensures forall k :: 0 <= k < |s.plans| && s.plans[k].date != updated.date ==> r.plans[k] == s.plans[k]
    ensures r.stored == Some(r.plans)
    ensures r.selected == Some(updated)
  {
    var plans := seq(|s.plans|, k requires 0 <= k < |s.plans| =>
      if s.plans[k].date == updated.date then updated else s.plans[k]);
    s.(plans := plans, stored := Some(plans), selected := Some(updated))
  }

  /** Repeating an update changes nothing more. */
  lemma UpdateIdempotent(s: CalendarState, updated: DayPlan)
    ensures HandleUpdatePlan(HandleUpdatePlan(s, updated), updated) == HandleUpdatePlan(s, updated)
  {
  }

  /** How a plan's card shows: its theme and description on a posting day, a bare "Rest Day"
      otherwise. */
  datatype Card = ActiveCard(theme: string, description: string) | RestCard

  function DisplayCard(postingDays: seq<int>, plan: DayPlan): (c: Card)
    ensures c.RestCard? <==> Weekday(plan.date) !in postingDays
    ensures c.ActiveCard? ==> c.theme == plan.theme && c.description == plan.description
  {
    if Weekday(plan.date) in postingDays then ActiveCard(plan.theme, plan.description) else RestCard
  }

  /** On a day that is not a posting day the stored theme never shows. */
  lemma InactiveDayHidesTheme(postingDays: seq<int>, p: DayPlan, q: DayPlan)
    requires p.date == q.date && Weekday(p.date) !in postingDays
    ensures DisplayCard(postingDays, p) == DisplayCard(postingDays, q) == RestCard
  {
  }
}

=== FILE: chat.dfy ===
/** The day planner's chat transcript: the greeting, each send with its reply or error, the
    Enter key, and the platform's preset prompts. The remote chat session is an outcome
    parameter; message ids come from clock readings passed in. */
module Chat {
  import opened Wrappers
  import opened Types
  import opened Text

  const GreetingFallback := "Ready to plan. What do you need?"
  const EmptyReplyFallback := "I couldn't generate a response."
  const ConnectionError := "Error connecting to AI. Please try again."

  /** What the remote session did with one message: answered (a missing text reads as "") or
      threw. */
  datatype Reply = Replied(text: string) | Failed

  datatype ChatState = ChatState(messages: seq<ChatMessage>, input: string, isLoading: bool, hasSession: bool)

  /** The planner opens on an empty transcript with a fresh session. */
  function Open(): (s: ChatState)
    ensures s.messages == [] && s.input == "" && !s.isLoading && s.hasSession
  {
    ChatState([], "", false, true)
  }

  /** The greeting: a reply replaces the transcript with one model message `init`; a failure
      leaves it as it was. */
  function Greet(s: ChatState, reply: Reply): (r: ChatState)
    ensures !r.isLoading && r.input == s.input && r.hasSession == s.hasSession
    ensures reply.Failed? ==> r.messages == s.messages
    ensures reply.Replied? ==> |r.messages| == 1 && r.messages[0].id == Init && r.messages[0].role == Model
    ensures reply.Replied? && reply.text != "" ==> r.messages[0].text == reply.text
    ensures reply == Replied("") ==> r.messages[0].text == GreetingFallback
  {
    match reply
    case Replied(text) =>
      s.(messages := [ChatMessage(Init, Model, if text != "" then text else GreetingFallback)], isLoading := false)
    case Failed => s.(isLoading := false)
  }

  /** The session effect, which runs again whenever the chat is handed a new plan or profile
      object: a fresh session, then the greeting. The transcript is kept until the greeting's
      reply arrives, and then replaced by it. */
  function Restart(s: ChatState, reply: Reply): (r: ChatState)
    ensures r.hasSession && !r.isLoading && r.input == s.input
    ensures reply.Failed? ==> r.messages == s.messages
    ensures reply.Replied? ==> |r.messages| == 1 && r.messages[0].id == Init && r.messages[0].role == Model
  {
    Greet(s.(hasSession := true, isLoading := true), reply)
  }

  /** `sendMessage` goes ahead only for a non-blank text with a live session. */
  predicate Accepts(s: ChatState, text: string) {
    !IsBlank(text) && s.hasSession
  }

  /** The first half of a send: the user's text, untrimmed, is appended at once and the input
      is cleared. */
  function BeginSend(s: ChatState, text: string, sentAt: int): (r: ChatState)
    ensures !Accepts(s, text) ==> r == s
    ensures Accepts(s, text) ==>
      (r.messages == s.messages + [ChatMessage(Stamp(sentAt), User, text)]
       && r.isLoading && r.input == "" && r.hasSession)
  {
    if !Accepts(s, text) then s
    else s.(messages := s.messages + [ChatMessage(Stamp(sentAt), User, text)], input := "", isLoading := true)
  }

  /** The text of the model message a reply produces. */
  function ReplyText(reply: Reply): (t: string)
    ensures t != ""
    ensures reply.Replied? && reply.text != "" ==> t == reply.text
    ensures reply == Replied("") ==> t == EmptyReplyFallback
    ensures reply.Failed? ==> t == ConnectionError
  {
    match reply
    case Replied(text) => if text != "" then text else EmptyReplyFallback
    case Failed => ConnectionError
  }

  /** The second half: one model message is appended and loading ends. The success message's
      id is the clock reading plus one, the error message's the clock reading. */
  function CompleteSend(s: ChatState, reply: Reply, repliedAt: int): (r: ChatState)
    ensures |r.messages| == |s.messages| + 1 && r.messages[..|s.messages|] == s.messages
    ensures r.messages[|s.messages|].role == Model && r.messages[|s.messages|].text == ReplyText(reply)
    ensures !r.isLoading && r.input == s.input && r.hasSession == s.hasSession
  {
    var id := if reply.Replied? then Stamp(repliedAt + 1) else Stamp(repliedAt);
    s.(messages := s.messages + [ChatMessage(id, Model, ReplyText(reply))], isLoading := false)
  }

  /** A whole send: nothing happens to a blank text or without a session; otherwise the
      transcript grows by the user's message and then exactly one model message. */
  function SendMessage(s: ChatState, text: string, sentAt: int, repliedAt: int, reply: Reply): (r: ChatState)
    ensures !Accepts(s, text) ==> r == s
    ensures Accepts(s, text) ==>
      (|r.messages| == |s.messages| + 2 && r.messages[..|s.messages|] == s.messages
       && r.messages[|s.messages|] == ChatMessage(Stamp(sentAt), User, text)
       && r.messages[|s.messages| + 1].role == Model
       && r.messages[|s.messages| + 1].text == ReplyText(reply)
       && !r.isLoading && r.input == "" && r.hasSession)
  {
    if !Accepts(s, text) then s
    else
      var b := BeginSend(s, text, sentAt);
      var r := CompleteSend(b, reply, repliedAt);
      assert r.messages[..|s.messages|] == b.messages[..|s.messages|];
      r
  }

  /** Enter without Shift sends the current input; any other key leaves the transcript alone. */
  function HandleKeyDown(s: ChatState, isEnter: bool, shift: bool, sentAt: int, repliedAt: int, reply: Reply): (r: ChatState)
    ensures !(isEnter && !shift) ==> r == s
    ensures isEnter && !shift && Accepts(s, s.input) ==>
      (|r.messages| == |s.messages| + 2 && r.messages[|s.messages|].text == s.input && r.input == "")
    ensures isEnter && !shift && !Accepts(s, s.input) ==> r == s
    ensures isEnter && !shift ==> r == SendMessage(s, s.input, sentAt, repliedAt, reply)
  {
    if isEnter && !shift then SendMessage(s, s.input, sentAt, repliedAt, reply) else s
  }

  /** One send attempt with its clock readings and outcome. */
  datatype Turn = Turn(text: string, sentAt: int, repliedAt: int, reply: Reply)

  function Run(s: ChatState, turns: seq<Turn>): ChatState
    decreases |turns|
  {
    if |turns| == 0 then s
    else
      var t := turns[0];
      Run(SendMessage(s, t.text, t.sentAt, t.repliedAt, t.reply), turns[1..])
  }

  /** The text one send contributes: none when it is blank. */
  function SentText(t: Turn): seq<string> {
    if IsBlank(t.text) then [] else [t.text]
  }

  /** The texts of the non-blank sends. */
  function SentTexts(turns: seq<Turn>): seq<string>
    decreases |turns|
  {
    if |turns| == 0 then [] else SentText(turns[0]) + SentTexts(turns[1..])
  }

  /** The user-authored texts of a transcript, in order. */
  function UserTexts(messages: seq<ChatMessage>): seq<string>
    decreases |messages|
  {
    if |messages| == 0 then []
    else (if messages[0].role == User then [messages[0].text] else []) + UserTexts(messages[1..])
  }

  lemma {:induction false} UserTextsConcat(a: seq<ChatMessage>, b: seq<ChatMessage>)
    ensures UserTexts(a + b) == UserTexts(a) + UserTexts(b)
    decreases |a|
  {
    if |a| == 0 {
      assert a + b == b;
    } else {
      assert (a + b)[1..] == a[1..] + b;
      UserTextsConcat(a[1..], b);
    }
  }

  /** One send, in the terms the series lemma needs. */
  lemma SendStep(s: ChatState, t: Turn)
    requires s.hasSession
    ensures var s1 := SendMessage(s, t.text, t.sentAt, t.repliedAt, t.reply);
      |s1.messages| == |s.messages| + 2 * |SentText(t)|
      && s.messages <= s1.messages
      && UserTexts(s1.messages) == UserTexts(s.messages) + SentText(t)
      && s1.hasSession
  {
    var s1 := SendMessage(s, t.text, t.sentAt, t.repliedAt, t.reply);
    if Accepts(s, t.text) {
      var added := s1.messages[|s.messages|..];
      assert s1.messages == s.messages + added;
      UserTextsConcat(s.messages, added);
      var tail := added[1..];
      assert added[0] == ChatMessage(Stamp(t.sentAt), User, t.text);
      assert tail[0].role == Model && tail[1..] == [];
      assert UserTexts(tail) == UserTexts(tail[1..]) == [];
      assert UserTexts(added) == [t.text] + UserTexts(tail);
    }
  }

  /** Sends on a live session only ever append: the old transcript is a prefix of the new. */
  lemma {:induction false} RunAppendOnly(s: ChatState, turns: seq<Turn>)
    requires s.hasSession
    ensures s.messages <= Run(s, turns).messages && Run(s, turns).hasSession
    decreases |turns|
  {
    if |turns| > 0 {
      var t := turns[0];
      SendStep(s, t);
      RunAppendOnly(SendMessage(s, t.text, t.sentAt, t.repliedAt, t.reply), turns[1..]);
    }
  }

  /** Each non-blank send adds exactly two messages; blank ones add none. */
  lemma {:induction false} RunGrowth(s: ChatState, turns: seq<Turn>)
    requires s.hasSession
    ensures |Run(s, turns).messages| == |s.messages| + 2 * |SentTexts(turns)|
    decreases |turns|
  {
    if |turns| > 0 {
      var t := turns[0];
      SendStep(s, t);
      RunGrowth(SendMessage(s, t.text, t.sentAt, t.repliedAt, t.reply), turns[1..]);
    }
  }

  /** The user messages are exactly the non-blank texts, in the order they were sent. */
  lemma {:induction false} RunUserTexts(s: ChatState, turns: seq<Turn>)
    requires s.hasSession
    ensures UserTexts(Run(s, turns).messages) == UserTexts(s.messages) + SentTexts(turns)
    decreases |turns|
  {
    if |turns| > 0 {
      var t := turns[0];
      SendStep(s, t);
      RunUserTexts(SendMessage(s, t.text, t.sentAt, t.repliedAt, t.reply), turns[1..]);
    }
  }

  /** After a successful greeting, whatever is sent next, the first message stays the
      model's greeting. */
  lemma GreetingStaysFirst(reply: Reply, turns: seq<Turn>)
    requires reply.Replied?
    ensures var r := Run(Greet(Open(), reply), turns);
      |r.messages| > 0 && r.messages[0].id == Init && r.messages[0].role == Model
  {
    var g := Greet(Open(), reply);
    RunAppendOnly(g, turns);
    var r := Run(g, turns);
    assert r.messages[0] == g.messages[0];
  }

  /** When the greeting fails, the first message can be the user's own. */
  lemma FailedGreetingLetsUserGoFirst()
    ensures var r := SendMessage(Greet(Open(), Failed), "Hi", 0, 1, Replied("Hello"));
      r.messages[0].role == User
  {
    var g := Greet(Open(), Failed);
    assert g.messages == [] && g.hasSession;
    assert !IsBlank("Hi") by { BlankIffAllWhitespace("Hi"); assert !IsWhitespace("Hi"[0]); }
    assert Accepts(g, "Hi");
  }

  /** A shortcut button and the prompt it sends. Each prompt literal is written as its first
      word followed by the rest: the verifier reads the characters of a short literal but not
      of a long one, and the first character is what shows the prompt is not blank. */
  datatype Preset = Preset(name: string, prompt: string)

  const Brainstorm := Preset("Brainstorm Ideas", "Give " + "me 3 distinct execution angles for this theme.")

  /** `getPresets`: four shortcuts, brainstorming first, the rest depending on the platform. */
  function Presets(platform: Platform): (r: seq<Preset>)
    ensures |r| == 4 && r[0] == Brainstorm
  {
    match platform
    case YouTube => [
      Brainstorm,
      Preset("Outline Script", "Write " + "a detailed script outline with timestamps."),
      Preset("Thumbnail Ideas", "Describe " + "3 clickable thumbnail concepts with text overlays."),
      Preset("Title Options", "Give " + "me 5 SEO-friendly viral titles.")]
    case Instagram => [
      Brainstorm,
      Preset("Reel Script", "Write " + "a 30-second Reel script with visual cues and audio suggestions."),
      Preset("Caption & Hashtags", "Write " + "an engaging caption with a hook and relevant hashtags."),
      Preset("Story Sequence", "Plan " + "a 3-slide Story sequence to promote this.")]
  }

  /** Only the first preset is shared: the other three differ between the platforms. */
  lemma PresetsDifferByPlatform()
    ensures forall i, j :: 1 <= i < 4 && 1 <= j < 4 ==> Presets(YouTube)[i] != Presets(Instagram)[j]
  {
    var y, g := Presets(YouTube), Presets(Instagram);
    forall i, j | 1 <= i < 4 && 1 <= j < 4 ensures y[i] != g[j] {
      assert y[i].name[0] != g[j].name[0];
    }
  }

  /** Every preset prompt is non-blank, so clicking a preset on a live session always adds the
      prompt as a user message and one model reply. */
  lemma {:induction false} PresetSendAddsExchange(s: ChatState, platform: Platform, i: int, sentAt: int, repliedAt: int, reply: Reply)
    requires 0 <= i < 4 && s.hasSession
    ensures var p := Presets(platform)[i].prompt;
      var r := SendMessage(s, p, sentAt, repliedAt, reply);
      |r.messages| == |s.messages| + 2 && r.messages[|s.messages|] == ChatMessage(Stamp(sentAt), User, p)
  {
    var p := Presets(platform)[i].prompt;
    PromptsStartWithLetter(platform);
    assert !IsWhitespace(p[0]);
    BlankIffAllWhitespace(p);
  }

  lemma PromptsStartWithLetter(platform: Platform)
    ensures forall i :: 0 <= i < 4 ==> |Presets(platform)[i].prompt| > 0 && 'A' <= Presets(platform)[i].prompt[0] <= 'Z'
  {
    var ps := Presets(platform);
    assert ps[0].prompt[0] == 'G';
    match platform
    case YouTube =>
      assert ps[1].prompt[0] == 'W' && ps[2].prompt[0] == 'D' && ps[3].prompt[0] == 'G';
    case Instagram =>
      assert ps[1].prompt[0] == 'W' && ps[2].prompt[0] == 'W' && ps[3].prompt[0] == 'P';
  }
}

=== FILE: day_planner.dfy ===
/** The day planner's posted/pending button, and how its result flows back into the week. */
module DayPlanner {
  import opened Wrappers
  import opened Types
  import opened Calendar
  import Chat

  /** JavaScript truthiness of the optional flag: an absent value counts as not posted. */
  predicate IsPosted(p: DayPlan) {
    p.isPosted == Some(true)
  }

  /** `{ ...dayPlan, isPosted: !dayPlan.isPosted }`: the flag is flipped and always present
      afterwards; date, theme and description are untouched. */
  function TogglePosted(p: DayPlan): (r: DayPlan)
    ensures r.isPosted.Some? && (IsPosted(r) <==> !IsPosted(p))
    ensures p.isPosted.None? ==> IsPosted(r)
    ensures r.date == p.date && r.theme == p.theme && r.description == p.description
  {
    p.(isPosted := Some(!IsPosted(p)))
  }

  /** Toggling twice restores a plan whose flag was present, and settles an absent flag on
      "not posted". */
  lemma ToggleTwice(p: DayPlan)
    ensures p.isPosted.Some? ==> TogglePosted(TogglePosted(p)) == p
    ensures p.isPosted.None? ==> TogglePosted(TogglePosted(p)) == p.(isPosted := Some(false))
  {
    var q := TogglePosted(TogglePosted(p));
    assert q.date == p.date && q.theme == p.theme && q.description == p.description;
    if p.isPosted.Some? {
      var b := p.isPosted.value;
      assert IsPosted(p) == b;
      assert q.isPosted == Some(IsPosted(p));
    }
  }

  /** In a week whose dates are distinct, toggling day `k` and handing the result to the
      calendar changes that day's flag and nothing else. */
  lemma {:induction false} ToggleChangesOnlyThatDay(s: CalendarState, k: int)
    requires 0 <= k < |s.plans|
    requires forall i, j :: 0 <= i < j < |s.plans| ==> s.plans[i].date != s.plans[j].date
    ensures var r := HandleUpdatePlan(s, TogglePosted(s.plans[k]));
      |r.plans| == |s.plans| && r.plans[k] == TogglePosted(s.plans[k])
      && (forall j :: 0 <= j < |s.plans| && j != k ==> r.plans[j] == s.plans[j])
      && r.stored == Some(r.plans)
  {
    var u := TogglePosted(s.plans[k]);
    forall j | 0 <= j < |s.plans| && j != k ensures s.plans[j].date != u.date {
      if j < k { assert s.plans[j].date != s.plans[k].date; }
      else { assert s.plans[k].date != s.plans[j].date; }
    }
  }

  /** A freshly generated week qualifies: toggling one of its days touches only that day. */
  lemma ToggleInGeneratedWeek(s: CalendarState, today: Day, entries: seq<PlanEntry>, k: int)
    requires 0 <= k < 7
    ensures var g := GenerateNewWeek(s, today, Some(entries));
      var r := HandleUpdatePlan(g, TogglePosted(g.plans[k]));
      IsPosted(r.plans[k]) && forall j :: 0 <= j < 7 && j != k ==> r.plans[j] == g.plans[j]
  {
    var g := GenerateNewWeek(s, today, Some(entries));
    MergeDatesDistinct(WeekAnchor(today), entries);
    ToggleChangesOnlyThatDay(g, k);
  }

  /** The open planner: the calendar, whose selected day the planner shows, and the chat about
      that day. */
  datatype Planner = Planner(calendar: CalendarState, chat: Chat.ChatState)

  /** "Mark as Complete" / "Mark as Pending": the toggled plan goes to the calendar, which makes
      it the selected day. Being a new plan object, it reaches the chat as a new `dayPlan` and
      re-runs the chat's session effect, whose greeting replaces the transcript. */
  function ClickPostedButton(p: Planner, greeting: Chat.Reply): (r: Planner)
    requires p.calendar.selected.Some?
    ensures r.calendar == HandleUpdatePlan(p.calendar, TogglePosted(p.calendar.selected.value))
    ensures r.calendar.selected == Some(TogglePosted(p.calendar.selected.value))
    ensures r.calendar.stored == Some(r.calendar.plans) && |r.calendar.plans| == |p.calendar.plans|
    ensures greeting.Failed? ==> r.chat.messages == p.chat.messages
    ensures greeting.Replied? ==> |r.chat.messages| == 1 && r.chat.messages[0].id == Init
    ensures r.chat.hasSession && !r.chat.isLoading
  {
    var c := HandleUpdatePlan(p.calendar, TogglePosted(p.calendar.selected.value));
    Planner(c, Chat.Restart(p.chat, greeting))
  }

  /** So marking a day done discards the conversation about it: after any exchange, a greeted
      restart leaves only the greeting, and no message of the user's survives. */
  lemma PostedButtonDiscardsConversation(p: Planner, text: string, sentAt: int, repliedAt: int, reply: Chat.Reply, greeting: Chat.Reply)
    requires p.calendar.selected.Some? && greeting.Replied? && Chat.Accepts(p.chat, text)
    ensures var before := p.(chat := Chat.SendMessage(p.chat, text, sentAt, repliedAt, reply));
      var after := ClickPostedButton(before, greeting);
      |before.chat.messages| >= 2 && |after.chat.messages| == 1
      && forall k :: 0 <= k < |after.chat.messages| ==> after.chat.messages[k].role == Model
  {
  }
}

=== FILE: lists.dfy ===
/** The two `Array.prototype.filter` shapes the application uses on lists. */
module Lists {

  /** `s.filter((_, k) => k !== i)`: drops the element at index `i`, if there is one. */
  function RemoveAt<T>(s: seq<T>, i: int): (r: seq<T>)
    ensures 0 <= i < |s| ==> |r| == |s| - 1
    ensures 0 <= i < |s| ==> forall k :: 0 <= k < i ==> r[k] == s[k]
    ensures 0 <= i < |s| ==> forall k :: i <= k < |r| ==> r[k] == s[k + 1]
    ensures !(0 <= i < |s|) ==> r == s
  {
    if 0 <= i < |s| then s[..i] + s[i + 1..] else s
  }

  /** Removing index `i` takes exactly one copy of `s[i]` out of the multiset. */
  lemma RemoveAtMultiset<T>(s: seq<T>, i: int)
    requires 0 <= i < |s|
    ensures multiset(RemoveAt(s, i)) + multiset{s[i]} == multiset(s)
  {
    assert s == s[..i] + [s[i]] + s[i + 1..];
  }

  /** `RemoveAt` undoes an insertion at the same index. */
  lemma RemoveAtInverse<T>(s: seq<T>, i: int, x: T)
    requires 0 <= i <= |s|
    ensures RemoveAt(s[..i] + [x] + s[i..], i) == s
  {
    var t := s[..i] + [x] + s[i..];
    assert t[..i] == s[..i] && t[i + 1..] == s[i..];
    assert s == s[..i] + s[i..];
  }

  /** `r` is `s` with some elements left out and the rest in their original order. */
  predicate Subsequence<T(==)>(r: seq<T>, s: seq<T>)
    decreases |s|
  {
    if |r| == 0 then true
    else if |s| == 0 then false
    else if r[0] == s[0] then Subsequence(r[1..], s[1..])
    else Subsequence(r, s[1..])
  }

  /** `s.filter(d => d !== x)`: every occurrence of `x` gone, the rest in order. */
  function RemoveAll<T(==)>(s: seq<T>, x: T): (r: seq<T>)
    ensures forall y :: y in r ==> y in s && y != x
    ensures forall y :: y in s && y != x ==> y in r
    ensures multiset(r) == multiset(s)[x := 0]
    ensures Subsequence(r, s)
    decreases |s|
  {
    if |s| == 0 then []
    else
      assert s == [s[0]] + s[1..];
      var rest := RemoveAll(s[1..], x);
      if s[0] == x then
        assert |rest| > 0 ==> rest[0] in rest && rest[0] != s[0];
        rest
      else
        assert ([s[0]] + rest)[1..] == rest;
        [s[0]] + rest
  }

  /** Removing a value that does not occur changes nothing. */
  lemma {:induction false} RemoveAllAbsent<T>(s: seq<T>, x: T)
    requires x !in s
    ensures RemoveAll(s, x) == s
    decreases |s|
  {
    if |s| > 0 {
      RemoveAllAbsent(s[1..], x);
      assert s == [s[0]] + s[1..];
    }
  }

  /** No value occurs twice. */
  predicate Distinct<T(==)>(s: seq<T>) {
    forall x :: x in s ==> multiset(s)[x] <= 1
  }

  /** The multiset formulation agrees with pairwise distinct positions. */
  lemma DistinctPositions<T>(s: seq<T>)
    requires Distinct(s)
    ensures forall i, j :: 0 <= i < j < |s| ==> s[i] != s[j]
  {
    forall i, j | 0 <= i < j < |s| ensures s[i] != s[j] {
      var m := multiset(s);
      assert s == s[..i] + [s[i]] + s[i + 1..j] + [s[j]] + s[j + 1..];
      assert m == multiset(s[..i]) + multiset{s[i]} + multiset(s[i + 1..j]) + multiset{s[j]} + multiset(s[j + 1..]);
      assert m[s[i]] >= 1 + multiset{s[j]}[s[i]];
    }
  }

  /** Two lists with the same multiset have the same members, and one is distinct
      exactly when the other is. */
  lemma PermutationKeepsMembers<T>(a: seq<T>, b: seq<T>)
    requires multiset(a) == multiset(b)
    ensures forall x :: x in a <==> x in b
    ensures Distinct(a) <==> Distinct(b)
  {
    forall x ensures x in a <==> x in b {
      assert x in a <==> x in multiset(a);
      assert x in b <==> x in multiset(b);
    }
  }
}

=== FILE: onboarding.dfy ===
/** The six-step onboarding wizard: brand type, platform, name, posting days, content pillars
    with their descriptions, and persona with visual style. The step only moves forward, one
    at a time, and only when the current step's answer is present; the last step emits the
    profile. */
module Onboarding {
  import opened Wrappers
  import opened Types
  import opened Text
  import opened Lists
  import opened Sorting
  import opened PostingDays
  import Pillars

  datatype Wizard = Wizard(
    step: int,
    brandType: Option<BrandType>,
    platform: Option<Platform>,
    name: string,
    persona: string,
    visualStyle: string,
    pillars: seq<Pillar>,
    currentPillarName: string,
    editing: Option<int>,
    editingDesc: string,
    selectedDays: seq<int>)

  /** Reading a field of `pillars[i]` for an index with no pillar. */
  datatype Fault = TypeError

  /** A fresh wizard on step 1 with nothing chosen. */
  function Start(): (w: Wizard)
    ensures w.step == 1 && w.brandType == None && w.platform == None
    ensures w.pillars == [] && w.selectedDays == [] && w.editing == None
    ensures Valid(w)
  {
    Wizard(1, None, None, "", "", "", [], "", None, "", [])
  }

  /** The six suggestion chips of the pillar step. */
  const Suggestions: seq<string> := ["Educational", "Vlogs", "Skits", "Industry News", "Q&A", "Motivation"]

  /** The day checkbox `i` flips membership; a newly checked day goes to the end. */
  function ToggleDay(w: Wizard, i: int): (r: Wizard)
    ensures r == w.(selectedDays := r.selectedDays)
    ensures i in r.selectedDays <==> i !in w.selectedDays
    ensures forall d :: d != i ==> (d in r.selectedDays <==> d in w.selectedDays)
  {
    w.(selectedDays := Toggle(w.selectedDays, i))
  }

  /** The typed pillar: trimmed and appended unless blank or already present; the input box is
      cleared only when a pillar was actually added. */
  function AddPillar(w: Wizard): (r: Wizard)
    ensures r.pillars == Pillars.Add(w.pillars, w.currentPillarName)
    ensures r.currentPillarName == (if IsBlank(w.currentPillarName) || Pillars.HasName(w.pillars, Trim(w.currentPillarName)) then w.currentPillarName else "")
    ensures r == w.(pillars := r.pillars, currentPillarName := r.currentPillarName)
  {
    if !IsBlank(w.currentPillarName) && !Pillars.HasName(w.pillars, Trim(w.currentPillarName)) then
      w.(pillars := Pillars.AddNamed(w.pillars, Trim(w.currentPillarName)), currentPillarName := "")
    else w
  }

  /** A suggestion chip adds its pillar unless one of that name exists; it leaves the input box
      alone. */
  function AddSuggestion(w: Wizard, k: int): (r: Wizard)
    requires 0 <= k < |Suggestions|
    ensures r == w.(pillars := r.pillars)
    ensures Pillars.HasName(w.pillars, Suggestions[k]) ==> r == w
    ensures !Pillars.HasName(w.pillars, Suggestions[k]) ==> r.pillars == w.pillars + [Pillar(Suggestions[k], "")]
  {
    w.(pillars := Pillars.AddNamed(w.pillars, Suggestions[k]))
  }

  /** `removePillar` as the code has it: the pillar goes, and the edit overlay closes only when
      it was showing that very index. */
  function RemovePillarAsWritten(w: Wizard, i: int): (r: Wizard)
    ensures r.pillars == Pillars.Remove(w.pillars, i)
    ensures r.editing == (if w.editing == Some(i) then None else w.editing)
    ensures r == w.(pillars := r.pillars, editing := r.editing)
  {
    w.(pillars := Pillars.Remove(w.pillars, i), editing := if w.editing == Some(i) then None else w.editing)
  }

  /** `removePillar` as intended: an edit of a later pillar follows it down one place. */
  function RemovePillar(w: Wizard, i: int): (r: Wizard)
    ensures r.pillars == Pillars.Remove(w.pillars, i)
    ensures r == w.(pillars := r.pillars, editing := r.editing)
  {
    var e := match w.editing
      case None => None
      case Some(j) => if j == i then None else if 0 <= i < j then Some(j - 1) else Some(j);
    w.(pillars := Pillars.Remove(w.pillars, i), editing := e)
  }

  /** With the correction, an open edit still names the pillar it was opened on, or closes when
      that pillar is the one removed. */
  lemma RemoveKeepsEditTarget(w: Wizard, i: int)
    requires 0 <= i < |w.pillars| && w.editing.Some? && 0 <= w.editing.value < |w.pillars|
    ensures var r := RemovePillar(w, i);
      (w.editing.value == i <==> r.editing == None)
      && (r.editing.Some? ==> 0 <= r.editing.value < |r.pillars| && r.pillars[r.editing.value] == w.pillars[w.editing.value])
  {
  }

  /** The overlay's title reads the name of `pillars[editing]`, so the pillar step renders only
      while an open edit names a pillar. */
  predicate EditNamesPillar(w: Wizard) {
    w.editing.Some? ==> 0 <= w.editing.value < |w.pillars|
  }

  /** As written, a removal leaves the overlay naming no pillar exactly when the last pillar is
      being edited and an earlier one is removed. */
  lemma RemoveAsWrittenDangles(w: Wizard, i: int)
    requires 0 <= i < |w.pillars| && EditNamesPillar(w)
    ensures !EditNamesPillar(RemovePillarAsWritten(w, i)) <==>
      w.editing.Some? && i < w.editing.value == |w.pillars| - 1
  {
  }

  /** A wizard on the pillar step with every earlier answer given, editing "Q&A". */
  function ThreePillarWizard(): Wizard {
    Start().(step := 5, brandType := Some(Personal), platform := Some(YouTube), name := "Mono",
             selectedDays := [1], pillars := [Pillar("Vlogs", ""), Pillar("Skits", ""), Pillar("Q&A", "")], editing := Some(2))
  }

  /** As written, removing a pillar before the one being edited leaves the overlay on an index
      that no longer holds it: here it points past the end, where the overlay's title and the
      save both fail. */
  lemma RemoveBeforeEditDangles()
    ensures var w := ThreePillarWizard();
      var r := RemovePillarAsWritten(w, 0);
      r.editing == Some(2) && |r.pillars| == 2 && SavePillarEdit(r).Err?
  {
  }

  /** In the wizard such a removal is an action that fails: removing any pillar before the
      last while the last one's overlay is open. */
  lemma RemoveBeforeLastEditFails(w: Wizard, i: int)
    requires Valid(w) && w.step == 5 && w.editing == Some(|w.pillars| - 1) && 0 <= i < |w.pillars| - 1
    ensures Apply(w, ClickRemovePillar(i)) == Err(TypeError)
  {
    RemoveAsWrittenDangles(w, i);
  }

  /** The three-pillar wizard above is one the user can be in, so the failure is reachable. */
  lemma RemoveBeforeEditFails()
    ensures Valid(ThreePillarWizard()) && Apply(ThreePillarWizard(), ClickRemovePillar(0)) == Err(TypeError)
  {
    ThreePillarWizardValid();
    RemoveBeforeLastEditFails(ThreePillarWizard(), 0);
  }

  lemma ThreePillarWizardValid()
    ensures Valid(ThreePillarWizard())
  {
    var w := ThreePillarWizard();
    assert !IsBlank(w.name) by { BlankIffAllWhitespace(w.name); assert !IsWhitespace(w.name[0]); }
    assert Distinct(w.selectedDays) by { assert multiset(w.selectedDays) == multiset{1}; }
    assert Pillars.DistinctNames(w.pillars);
  }

  /** And with one more pillar the overlay silently moves to the wrong pillar: saving writes
      the description into "Skits"' successor rather than "Q&A". */
  lemma RemoveBeforeEditRetargets()
    ensures var w := Start().(step := 5, pillars := [Pillar("Vlogs", ""), Pillar("Skits", ""), Pillar("Q&A", ""), Pillar("Motivation", "")], editing := Some(2), editingDesc := "60 seconds");
      var r := RemovePillarAsWritten(w, 0);
      var s := SavePillarEdit(r);
      s.Ok? && s.value.pillars[2] == Pillar("Motivation", "60 seconds") && s.value.pillars[1] == Pillar("Q&A", "")
  {
    var w := Start().(step := 5, pillars := [Pillar("Vlogs", ""), Pillar("Skits", ""), Pillar("Q&A", ""), Pillar("Motivation", "")], editing := Some(2), editingDesc := "60 seconds");
    var r := RemovePillarAsWritten(w, 0);
    assert r.pillars == [Pillar("Skits", ""), Pillar("Q&A", ""), Pillar("Motivation", "")];
    assert r.editing == Some(2) && r.editingDesc == "60 seconds";
    var s := SavePillarEdit(r);
    assert s.Ok?;
    assert s.value.pillars[2] == r.pillars[2].(description := "60 seconds");
    assert s.value.pillars[1] == r.pillars[1];
  }

  /** Clicking a chip opens the overlay on it with its current description. */
  function OpenPillarEdit(w: Wizard, i: int): (r: Result<Wizard, Fault>)
    ensures 0 <= i < |w.pillars| <==> r.Ok?
    ensures r.Ok? ==> r.value == w.(editing := Some(i), editingDesc := w.pillars[i].description)
  {
    if 0 <= i < |w.pillars| then Ok(w.(editing := Some(i), editingDesc := w.pillars[i].description))
    else Err(TypeError)
  }

  /** "Save Details": the edited description goes into the pillar and the overlay closes; with
      no overlay open nothing happens. */
  function SavePillarEdit(w: Wizard): (r: Result<Wizard, Fault>)
    ensures w.editing == None ==> r == Ok(w)
    ensures w.editing.Some? ==> (r.Ok? <==> 0 <= w.editing.value < |w.pillars|)
    ensures r.Ok? && w.editing.Some? ==>
      (r.value.editing == None && |r.value.pillars| == |w.pillars|
       && r.value.pillars[w.editing.value] == w.pillars[w.editing.value].(description := w.editingDesc)
       && forall k :: 0 <= k < |w.pillars| && k != w.editing.value ==> r.value.pillars[k] == w.pillars[k])
    ensures r.Ok? && w.editing.Some? ==> r.value == w.(pillars := r.value.pillars, editing := None)
  {
    match w.editing
    case None => Ok(w)
    case Some(i) =>
      if 0 <= i < |w.pillars| then Ok(w.(pillars := Pillars.Update(w.pillars, i, Pillars.Description, w.editingDesc), editing := None))
      else Err(TypeError)
  }

  /** The answer `handleNext` demands before leaving each step. */
  predicate StepDone(w: Wizard) {
    match w.step
    case 1 => w.brandType.Some?
    case 2 => w.platform.Some?
    case 3 => !IsBlank(w.name)
    case 4 => |w.selectedDays| > 0
    case 5 => |w.pillars| > 0
    case 6 => !IsBlank(w.persona) && !IsBlank(w.visualStyle)
    case _ => false
  }

  /** The profile the last step hands over: the answers as given, the posting days under the
      default sort, empty extra notes, and the onboarded flag. */
  function Emit(w: Wizard): (p: Profile)
    requires w.brandType.Some? && w.platform.Some?
    ensures p.name == w.name && p.persona == w.persona && p.visualStyle == w.visualStyle
    ensures p.brandType == w.brandType.value && p.platform == w.platform.value
    ensures p.contentPillars == w.pillars && p.additionalInfo == Some("") && p.isOnboarded
    ensures Sorted(p.postingDays) && multiset(p.postingDays) == multiset(w.selectedDays)
  {
    Profile(w.name, w.brandType.value, w.platform.value, DefaultSort(w.selectedDays), w.pillars, w.persona, w.visualStyle, Some(""), true)
  }

  datatype NextOutcome = NextOutcome(wizard: Wizard, completed: Option<Profile>)

  /** `handleNext`: steps 1 to 5 advance by one when their answer is present; step 6 emits the
      profile, its posting days sorted in place by the default sort and its extra notes empty. */
  function HandleNext(w: Wizard): (r: NextOutcome)
    requires w.step == 6 ==> w.brandType.Some? && w.platform.Some?
    ensures r.completed.Some? <==> w.step == 6 && StepDone(w)
    ensures 1 <= w.step < 6 && StepDone(w) ==> r.wizard == w.(step := w.step + 1)
    ensures !StepDone(w) ==> r.wizard == w
    ensures r.wizard.step == w.step || r.wizard.step == w.step + 1
    ensures r.completed.Some? ==> r.completed.value == Emit(w) && r.wizard == w.(selectedDays := r.completed.value.postingDays)
  {
    var done := StepDone(w);
    if !done then NextOutcome(w, None)
    else if w.step != 6 then NextOutcome(w.(step := w.step + 1), None)
    else NextOutcome(w.(selectedDays := DefaultSort(w.selectedDays)), Some(Emit(w)))
  }

  /** What holds of every wizard the user can reach: each step passed has its answer, the days
      are distinct weekday indices, the pillar names are distinct and an open edit names a
      pillar (a wizard whose overlay names no pillar fails to render; see `Apply`). */
  predicate Valid(w: Wizard) {
    && 1 <= w.step <= 6
    && (w.step >= 2 ==> w.brandType.Some?)
    && (w.step >= 3 ==> w.platform.Some?)
    && (w.step >= 4 ==> !IsBlank(w.name))
    && (w.step >= 5 ==> |w.selectedDays| > 0)
    && (w.step >= 6 ==> |w.pillars| > 0)
    && AllDayIndices(w.selectedDays) && Distinct(w.selectedDays)
    && Pillars.DistinctNames(w.pillars)
    && EditNamesPillar(w)
  }

  /** The user's actions. Each control exists on one step only, so an event for a control the
      current step does not show does nothing. */
  datatype Event =
    | ChooseBrand(brand: BrandType)
    | ChoosePlatform(platform: Platform)
    | TypeName(text: string)
    | ClickDay(day: int)
    | TypePillarName(text: string)
    | ClickAddPillar
    | ClickSuggestion(k: int)
    | ClickRemovePillar(index: int)
    | ClickPillar(index: int)
    | TypeEditDesc(text: string)
    | ClickSaveDetails
    | CloseOverlay
    | TypePersona(text: string)
    | TypeVisualStyle(text: string)
    | ClickNext

  /** The controls that only the pillar step shows. */
  predicate IsPillarEvent(e: Event) {
    e.TypePillarName? || e.ClickAddPillar? || e.ClickSuggestion? || e.ClickRemovePillar?
    || e.ClickPillar? || e.TypeEditDesc? || e.ClickSaveDetails? || e.CloseOverlay?
  }

  /** The answer controls of steps 1, 2, 3 and 6: each sets its field while its step shows. */
  function ApplyAnswer(w: Wizard, e: Event): (r: Wizard)
    requires Valid(w)
    requires e.ChooseBrand? || e.ChoosePlatform? || e.TypeName? || e.TypePersona? || e.TypeVisualStyle?
    ensures Valid(r) && r.step == w.step
    ensures e.ChooseBrand? ==> r == (if w.step == 1 then w.(brandType := Some(e.brand)) else w)
    ensures e.ChoosePlatform? ==> r == (if w.step == 2 then w.(platform := Some(e.platform)) else w)
    ensures e.TypeName? ==> r == (if w.step == 3 then w.(name := e.text) else w)
    ensures e.TypePersona? ==> r == (if w.step == 6 then w.(persona := e.text) else w)
    ensures e.TypeVisualStyle? ==> r == (if w.step == 6 then w.(visualStyle := e.text) else w)
  {
    match e
    case ChooseBrand(b) => if w.step == 1 then w.(brandType := Some(b)) else w
    case ChoosePlatform(p) => if w.step == 2 then w.(platform := Some(p)) else w
    case TypeName(t) => if w.step == 3 then w.(name := t) else w
    case TypePersona(t) => if w.step == 6 then w.(persona := t) else w
    case TypeVisualStyle(t) => if w.step == 6 then w.(visualStyle := t) else w
  }

  /** The controls of the pillar step: typing, adding, suggestions, removing, and the edit
      overlay. Removal is the code's; it fails exactly when it leaves the overlay naming no
      pillar. */
  function ApplyPillarEvent(w: Wizard, e: Event): (r: Result<Wizard, Fault>)
    requires Valid(w) && w.step == 5
    ensures r.Ok? ==> Valid(r.value) && r.value.step == 5
    ensures r.Err? <==> e.ClickRemovePillar? && !EditNamesPillar(RemovePillarAsWritten(w, e.index))
    ensures e.ClickRemovePillar? && r.Ok? ==> r.value == RemovePillarAsWritten(w, e.index)
    ensures e.TypePillarName? ==> r == Ok(w.(currentPillarName := e.text))
    ensures e.ClickAddPillar? ==> r == Ok(AddPillar(w))
    ensures e.ClickSuggestion? ==> r == Ok(if 0 <= e.k < |Suggestions| then AddSuggestion(w, e.k) else w)
    ensures e.ClickPillar? ==> r == (if 0 <= e.index < |w.pillars| then OpenPillarEdit(w, e.index) else Ok(w))
    ensures e.TypeEditDesc? ==> r == Ok(if w.editing.Some? then w.(editingDesc := e.text) else w)
    ensures e.ClickSaveDetails? ==> r == SavePillarEdit(w)
    ensures e.CloseOverlay? ==> r == Ok(w.(editing := None))
    ensures !IsPillarEvent(e) ==> r == Ok(w)
  {
    match e
    case TypePillarName(t) => Ok(w.(currentPillarName := t))
    case ClickAddPillar => Ok(AddPillar(w))
    case ClickSuggestion(k) => Ok(if 0 <= k < |Suggestions| then AddSuggestion(w, k) else w)
    case ClickRemovePillar(i) =>
      var n := RemovePillarAsWritten(w, i);
      if EditNamesPillar(n) then Ok(n) else Err(TypeError)
    case ClickPillar(i) => if 0 <= i < |w.pillars| then OpenPillarEdit(w, i) else Ok(w)
    case TypeEditDesc(t) => Ok(if w.editing.Some? then w.(editingDesc := t) else w)
    case ClickSaveDetails =>
      if w.editing.Some? then
        Pillars.UpdateDescriptionKeepsNames(w.pillars, w.editing.value, w.editingDesc);
        SavePillarEdit(w)
      else Ok(w)
    case CloseOverlay => Ok(w.(editing := None))
    case _ => Ok(w)
  }

  /** Next keeps the invariant: it only advances past a step whose answer is present, and the
      in-place sort of the days keeps them distinct weekday indices. */
  function ApplyNext(w: Wizard): (r: Wizard)
    requires Valid(w)
    ensures Valid(r)
    ensures r == HandleNext(w).wizard
  {
    var n := HandleNext(w).wizard;
    PermutationKeepsMembers(n.selectedDays, w.selectedDays);
    n
  }

  /** One user action, as the code handles it. The only action that fails is a removal that
      leaves the edit overlay on an index past the end of the list. */
  function Apply(w: Wizard, e: Event): (r: Result<Wizard, Fault>)
    requires Valid(w)
    ensures r.Ok? ==> Valid(r.value)
    ensures r.Ok? ==> r.value.step == w.step || (e.ClickNext? && r.value.step == w.step + 1)
    ensures r.Err? <==> w.step == 5 && e.ClickRemovePillar? && !EditNamesPillar(RemovePillarAsWritten(w, e.index))
    ensures e.ClickNext? ==> r == Ok(HandleNext(w).wizard)
    ensures e.ClickDay? ==> r == Ok(if w.step == 4 && IsDayIndex(e.day) then ToggleDay(w, e.day) else w)
    ensures e.ChooseBrand? || e.ChoosePlatform? || e.TypeName? || e.TypePersona? || e.TypeVisualStyle? ==> r == Ok(ApplyAnswer(w, e))
    ensures IsPillarEvent(e) ==> r == (if w.step == 5 then ApplyPillarEvent(w, e) else Ok(w))
  {
    if IsPillarEvent(e) then (if w.step == 5 then ApplyPillarEvent(w, e) else Ok(w))
    else Ok(ApplyOther(w, e))
  }

  /** Next, the day boxes and the answer controls: none of them fails. */
  function ApplyOther(w: Wizard, e: Event): (r: Wizard)
    requires Valid(w) && !IsPillarEvent(e)
    ensures Valid(r)
    ensures r.step == w.step || (e.ClickNext? && r.step == w.step + 1)
    ensures e.ClickNext? ==> r == HandleNext(w).wizard
    ensures e.ClickDay? ==> r == (if w.step == 4 && IsDayIndex(e.day) then ToggleDay(w, e.day) else w)
    ensures !e.ClickNext? && !e.ClickDay? ==> r == ApplyAnswer(w, e)
  {
    match e
    case ClickNext => ApplyNext(w)
    case ClickDay(d) => if w.step == 4 && IsDayIndex(d) then ToggleDay(w, d) else w
    case ChooseBrand(_) => ApplyAnswer(w, e)
    case ChoosePlatform(_) => ApplyAnswer(w, e)
    case TypeName(_) => ApplyAnswer(w, e)
    case TypePersona(_) => ApplyAnswer(w, e)
    case TypeVisualStyle(_) => ApplyAnswer(w, e)
  }

  /** The same action with the corrected removal: it never fails, and it differs from the code
      only in where a removal leaves the edit overlay. */
  function ApplyCorrected(w: Wizard, e: Event): (r: Wizard)
    requires Valid(w)
    ensures Valid(r)
    ensures !e.ClickRemovePillar? ==> Apply(w, e) == Ok(r)
    ensures Apply(w, e).Ok? ==> r.pillars == Apply(w, e).value.pillars
  {
    match e
    case ClickRemovePillar(i) => if w.step == 5 then RemovePillar(w, i) else w
    case _ => Apply(w, e).value
  }

  /** A series of actions; a failed action ends the wizard. */
  function Run(w: Wizard, events: seq<Event>): (r: Result<Wizard, Fault>)
    requires Valid(w)
    ensures r.Ok? ==> Valid(r.value)
    decreases |events|
  {
    if |events| == 0 then Ok(w)
    else
      match Apply(w, events[0])
      case Err(f) => Err(f)
      case Ok(n) => Run(n, events[1..])
  }

  predicate NoRemoval(events: seq<Event>) {
    forall k :: 0 <= k < |events| ==> !events[k].ClickRemovePillar?
  }

  /** Without a removal no series of actions fails. */
  lemma {:induction false} OnlyRemovalFails(w: Wizard, events: seq<Event>)
    requires Valid(w) && NoRemoval(events)
    ensures Run(w, events).Ok?
    decreases |events|
  {
    if |events| > 0 {
      OnlyRemovalFails(Apply(w, events[0]).value, events[1..]);
    }
  }

  /** Every wizard reached from the start satisfies the invariant, and the step never goes
      back. */
  lemma {:induction false} RunKeepsStepOrder(w: Wizard, events: seq<Event>)
    requires Valid(w)
    ensures Run(w, events).Ok? ==> w.step <= Run(w, events).value.step <= 6
    decreases |events|
  {
    if |events| > 0 && Apply(w, events[0]).Ok? {
      RunKeepsStepOrder(Apply(w, events[0]).value, events[1..]);
    }
  }

  /** The step only moves past `n` through `n` clicks of Next: the step counts them. */
  function NextClicks(events: seq<Event>): nat
    decreases |events|
  {
    if |events| == 0 then 0 else (if events[0].ClickNext? then 1 else 0) + NextClicks(events[1..])
  }

  lemma {:induction false} StepBoundedByNextClicks(w: Wizard, events: seq<Event>)
    requires Valid(w)
    ensures Run(w, events).Ok? ==> Run(w, events).value.step <= w.step + NextClicks(events)
    decreases |events|
  {
    if |events| > 0 && Apply(w, events[0]).Ok? {
      StepBoundedByNextClicks(Apply(w, events[0]).value, events[1..]);
    }
  }

  /** The posting days handed over are the checked days, distinct and in ascending order. */
  lemma EmittedDaysAscend(w: Wizard)
    requires w.brandType.Some? && w.platform.Some?
    requires AllDayIndices(w.selectedDays) && Distinct(w.selectedDays)
    ensures var days := Emit(w).postingDays;
      && AllDayIndices(days) && Distinct(days) && |days| == |w.selectedDays|
      && (forall i, j :: 0 <= i < j < |days| ==> days[i] < days[j])
      && (forall d :: d in days <==> d in w.selectedDays)
  {
    var days := Emit(w).postingDays;
    assert Sorted(days) && multiset(days) == multiset(w.selectedDays);
    SortedPermutation(days, w.selectedDays);
    SortedDistinctAscend(days);
  }

  lemma SortedDistinctAscend(days: seq<int>)
    requires Sorted(days) && AllDayIndices(days) && Distinct(days)
    ensures forall i, j :: 0 <= i < j < |days| ==> days[i] < days[j]
  {
    SortedDaysAscend(days);
    DistinctPositions(days);
  }

  lemma SortedPermutation(days: seq<int>, selected: seq<int>)
    requires multiset(days) == multiset(selected)
    requires AllDayIndices(selected) && Distinct(selected)
    ensures AllDayIndices(days) && Distinct(days) && |days| == |selected|
    ensures forall d :: d in days <==> d in selected
  {
    PermutationKeepsMembers(days, selected);
    assert |days| == |multiset(days)| == |multiset(selected)| == |selected|;
  }

  /** On step 6 with persona and visual style filled in, Next emits a profile, and it is
      complete: a non-blank name, persona and visual style, at least one posting day, all
      distinct weekday indices in ascending order, at least one pillar with distinct names,
      empty extra notes, and the onboarded flag set. */
  lemma CompletedProfileIsComplete(w: Wizard)
    requires Valid(w) && w.step == 6 && !IsBlank(w.persona) && !IsBlank(w.visualStyle)
    ensures HandleNext(w).completed.Some?
    ensures var p := HandleNext(w).completed.value;
      && !IsBlank(p.name) && !IsBlank(p.persona) && !IsBlank(p.visualStyle)
      && |p.postingDays| > 0 && AllDayIndices(p.postingDays) && Distinct(p.postingDays)
      && (forall i, j :: 0 <= i < j < |p.postingDays| ==> p.postingDays[i] < p.postingDays[j])
      && (forall d :: d in p.postingDays <==> d in w.selectedDays)
      && |p.contentPillars| > 0 && Pillars.DistinctNames(p.contentPillars)
      && p.additionalInfo == Some("") && p.isOnboarded
  {
    assert StepDone(w);
    EmittedDaysAscend(w);
  }
}

=== FILE: pillars.dfy ===
/** The content-pillar list rules shared by the onboarding wizard and the settings panel. */
module Pillars {
  import opened Types
  import opened Text
  import opened Lists

  /** `ps.some(p => p.name === n)`: an exact, case-sensitive name match. */
  predicate HasName(ps: seq<Pillar>, n: string) {
    exists k :: 0 <= k < |ps| && ps[k].name == n
  }

  predicate DistinctNames(ps: seq<Pillar>) {
    forall i, j :: 0 <= i < j < |ps| ==> ps[i].name != ps[j].name
  }

  /** Appends a pillar called `n` with an empty description unless one of that exact name
      exists: the suggestion buttons, and the tail of the typed path. */
  function AddNamed(ps: seq<Pillar>, n: string): (r: seq<Pillar>)
    ensures HasName(ps, n) ==> r == ps
    ensures !HasName(ps, n) ==> |r| == |ps| + 1 && r[..|ps|] == ps && r[|ps|] == Pillar(n, "")
    ensures HasName(r, n)
    ensures DistinctNames(ps) ==> DistinctNames(r)
  {
    if HasName(ps, n) then ps
    else
      var r := ps + [Pillar(n, "")];
      assert r[|ps|].name == n;
      r
  }

  /** The typed path: the input is trimmed; a blank input adds nothing. */
  function Add(ps: seq<Pillar>, input: string): (r: seq<Pillar>)
    ensures IsBlank(input) ==> r == ps
    ensures !IsBlank(input) ==> r == AddNamed(ps, Trim(input))
    ensures DistinctNames(ps) ==> DistinctNames(r)
    ensures |r| == |ps| || (|r| == |ps| + 1 && r[..|ps|] == ps && r[|ps|].description == ""
      && !IsBlank(r[|ps|].name) && r[|ps|].name == Trim(r[|ps|].name))
  {
    if IsBlank(input) then ps
    else
      TrimIdempotent(input);
      AddNamed(ps, Trim(input))
  }

  /** A second identical add changes nothing. */
  lemma AddIdempotent(ps: seq<Pillar>, input: string)
    ensures Add(Add(ps, input), input) == Add(ps, input)
  {
  }

  /** `filter((_, k) => k !== i)` on pillars keeps their names distinct. */
  function Remove(ps: seq<Pillar>, i: int): (r: seq<Pillar>)
    ensures 0 <= i < |ps| ==> multiset(r) + multiset{ps[i]} == multiset(ps)
    ensures 0 <= i < |ps| ==> |r| == |ps| - 1
    ensures 0 <= i < |ps| ==> forall k :: 0 <= k < |r| ==> r[k] == ps[if k < i then k else k + 1]
    ensures !(0 <= i < |ps|) ==> r == ps
    ensures DistinctNames(ps) ==> DistinctNames(r)
  {
    var r := RemoveAt(ps, i);
    if 0 <= i < |ps| then
      RemoveAtMultiset(ps, i);
      r
    else r
  }

  datatype Field = Name | Description

  /** `updatePillar(i, field, value)`: replaces one field of one pillar, without any check on
      names. */
  function Update(ps: seq<Pillar>, i: int, field: Field, value: string): (r: seq<Pillar>)
    requires 0 <= i < |ps|
    ensures |r| == |ps|
    ensures forall k :: 0 <= k < |ps| && k != i ==> r[k] == ps[k]
    ensures field == Name ==> r[i].name == value && r[i].description == ps[i].description
    ensures field == Description ==> r[i].description == value && r[i].name == ps[i].name
  {
    ps[i := match field case Name => ps[i].(name := value) case Description => ps[i].(description := value)]
  }

  /** Editing a description never disturbs the names. */
  lemma UpdateDescriptionKeepsNames(ps: seq<Pillar>, i: int, value: string)
    requires 0 <= i < |ps| && DistinctNames(ps)
    ensures DistinctNames(Update(ps, i, Description, value))
  {
  }

  /** Editing a name can create a duplicate, which no add path allows. */
  lemma UpdateNameCanDuplicate()
    ensures var ps := [Pillar("Vlogs", ""), Pillar("Skits", "")];
      DistinctNames(ps) && !DistinctNames(Update(ps, 1, Name, "Vlogs"))
  {
    var ps := [Pillar("Vlogs", ""), Pillar("Skits", "")];
    assert ps[0].name != ps[1].name;
    var r := Update(ps, 1, Name, "Vlogs");
    assert r[0].name == r[1].name;
  }
}

=== FILE: posting_days.dfy ===
/** The posting-day checkboxes: toggling a weekday index in and out of the list. */
module PostingDays {
  import opened Lists
  import opened Sorting

  predicate IsDayIndex(d: int) {
    0 <= d < 7
  }

  predicate AllDayIndices(days: seq<int>) {
    forall d :: d in days ==> IsDayIndex(d)
  }

  /** The wizard's toggle: drop the day when present, otherwise append it at the end. */
  function Toggle(days: seq<int>, i: int): (r: seq<int>)
    ensures i in r <==> i !in days
    ensures forall d :: d != i ==> (d in r <==> d in days)
    ensures i !in days ==> r == days + [i]
    ensures i in days ==> multiset(r) == multiset(days)[i := 0]
    ensures Distinct(days) ==> Distinct(r)
    ensures AllDayIndices(days) && IsDayIndex(i) ==> AllDayIndices(r)
  {
    if i in days then RemoveAll(days, i) else days + [i]
  }

  /** The settings toggle: the same membership change, followed by the default sort. */
  function ToggleSorted(days: seq<int>, i: int): (r: seq<int>)
    ensures i in r <==> i !in days
    ensures forall d :: d != i ==> (d in r <==> d in days)
    ensures Sorted(r)
    ensures Distinct(days) ==> Distinct(r)
    ensures AllDayIndices(days) && IsDayIndex(i) ==> AllDayIndices(r)
  {
    var t := Toggle(days, i);
    var r := DefaultSort(t);
    PermutationKeepsMembers(r, t);
    r
  }

  /** Toggling the same day twice restores the set of days. */
  lemma {:induction false} ToggleTwiceSameSet(days: seq<int>, i: int)
    ensures forall d :: d in Toggle(Toggle(days, i), i) <==> d in days
  {
  }

  /** Toggling an absent day twice restores the very list. */
  lemma ToggleTwiceRestores(days: seq<int>, i: int)
    requires i !in days
    ensures Toggle(Toggle(days, i), i) == days
  {
    assert Toggle(days, i) == days + [i];
    assert i in days + [i];
    assert Toggle(days + [i], i) == RemoveAll(days + [i], i);
    RemoveAllConcat(days, [i], i);
    RemoveAllAbsent(days, i);
    assert RemoveAll([i], i) == [];
  }

  lemma {:induction false} RemoveAllConcat(a: seq<int>, b: seq<int>, x: int)
    ensures RemoveAll(a + b, x) == RemoveAll(a, x) + RemoveAll(b, x)
    decreases |a|
  {
    if |a| > 0 {
      assert (a + b)[1..] == a[1..] + b;
      RemoveAllConcat(a[1..], b, x);
    } else {
      assert a + b == b;
    }
  }

  /** A default-sorted list of weekday indices is in ascending numeric order. */
  lemma SortedDaysAscend(days: seq<int>)
    requires Sorted(days) && AllDayIndices(days)
    ensures forall i, j :: 0 <= i < j < |days| ==> days[i] <= days[j]
  {
    assert forall k :: 0 <= k < |days| ==> IsDayIndex(days[k]);
    SortedDigitsAscend(days);
  }
}

=== FILE: prompts.dfy ===
/** The pure pieces of the prompts sent to the language model, and the check on its plan
    response. The templates around these fragments are not modelled. */
module Prompts {
  import opened Wrappers
  import opened Types
  import opened Text

  const DayNames: seq<string> := ["Sunday", "Monday", "Tuesday", "Wednesday", "Thursday", "Friday", "Saturday"]

  /** `daysOfWeek[d]`; an index outside the table reads `undefined`, which `join` renders
      as the empty string. */
  function DayName(d: int): (r: string)
    ensures 0 <= d < 7 ==> r == DayNames[d]
    ensures !(0 <= d < 7) ==> r == ""
    ensures ',' !in r
  {
    if 0 <= d < 7 then DayNames[d] else ""
  }

  function DayNamesOf(days: seq<int>): (r: seq<string>)
    ensures |r| == |days|
    ensures forall k :: 0 <= k < |days| ==> r[k] == DayName(days[k])
  {
    seq(|days|, k requires 0 <= k < |days| => DayName(days[k]))
  }

  /** The "Active Days" line: the posting days' English names, in list order, joined by ", ".
      It can be read back: cutting it at ", " gives the day names in list order. */
  function ActiveDays(days: seq<int>): (r: string)
    ensures days == [] ==> r == ""
    ensures |days| > 0 ==> Split(r, ", ") == DayNamesOf(days)
  {
    var r := Join(DayNamesOf(days), ", ");
    if |days| > 0 then SplitJoin(DayNamesOf(days), ", "); r else r
  }

  const NoDetails := "No specific details."

  /** One line of the plan prompt's pillar list: `- name: description`, with a stock text
      for an empty description. */
  function PlanPillarLine(p: Pillar): (r: string)
    ensures var head := "- " + p.name + ": ";
      |head| <= |r| && r[..|head|] == head
      && r[|head|..] == (if p.description == "" then NoDetails else p.description)
  {
    "- " + p.name + ": " + (if p.description == "" then NoDetails else p.description)
  }

  function PlanPillarLines(ps: seq<Pillar>): (r: seq<string>)
    ensures |r| == |ps|
    ensures forall k :: 0 <= k < |ps| ==> r[k] == PlanPillarLine(ps[k])
  {
    seq(|ps|, k requires 0 <= k < |ps| => PlanPillarLine(ps[k]))
  }

  /** The plan prompt's pillar block: one line per pillar. It has exactly one line per pillar,
      in order, as long as names and descriptions are single-line. */
  function PlanPillarsContext(ps: seq<Pillar>): (r: string)
    ensures ps == [] ==> r == ""
    ensures SingleLine(ps) && |ps| > 0 ==> Split(r, "\n") == PlanPillarLines(ps)
  {
    var lines := PlanPillarLines(ps);
    if SingleLine(ps) && |ps| > 0 then
      PlanPillarLinesSingle(ps);
      SplitJoin(lines, "\n");
      Join(lines, "\n")
    else Join(lines, "\n")
  }

  predicate SingleLine(ps: seq<Pillar>) {
    forall k :: 0 <= k < |ps| ==> '\n' !in ps[k].name && '\n' !in ps[k].description
  }

  lemma PlanPillarLinesSingle(ps: seq<Pillar>)
    requires SingleLine(ps)
    ensures forall k :: 0 <= k < |ps| ==> '\n' !in PlanPillarLines(ps)[k]
  {
    forall k | 0 <= k < |ps| ensures '\n' !in PlanPillarLines(ps)[k] {
      PlanPillarLineSingle(ps[k]);
    }
  }

  lemma PlanPillarLineSingle(p: Pillar)
    requires '\n' !in p.name && '\n' !in p.description
    ensures '\n' !in PlanPillarLine(p)
  {
    var tail := if p.description == "" then NoDetails else p.description;
    assert '\n' !in "- " && '\n' !in ": " && '\n' !in tail;
    assert PlanPillarLine(p) == "- " + p.name + ": " + tail;
  }

  /** One entry of the chat instruction's format list: `name (description)`, with no
      stock text for an empty description. */
  function ChatPillarEntry(p: Pillar): (r: string)
    ensures |r| == |p.name| + |p.description| + 3
    ensures r[..|p.name|] == p.name && r[|p.name|..|p.name| + 2] == " ("
    ensures r[|p.name| + 2..|r| - 1] == p.description && r[|r| - 1] == ')'
  {
    p.name + " (" + p.description + ")"
  }

  function ChatPillarEntries(ps: seq<Pillar>): (r: seq<string>)
    ensures |r| == |ps|
    ensures forall k :: 0 <= k < |ps| ==> r[k] == ChatPillarEntry(ps[k])
  {
    seq(|ps|, k requires 0 <= k < |ps| => ChatPillarEntry(ps[k]))
  }

  /** The chat instruction's format list, joined by ", ". It can be read back entry by entry
      when no name or description has a comma. */
  function ChatPillarsContext(ps: seq<Pillar>): (r: string)
    ensures ps == [] ==> r == ""
    ensures CommaFree(ps) && |ps| > 0 ==> Split(r, ", ") == ChatPillarEntries(ps)
  {
    var entries := ChatPillarEntries(ps);
    if CommaFree(ps) && |ps| > 0 then
      ChatEntriesCommaFree(ps);
      SplitJoin(entries, ", ");
      Join(entries, ", ")
    else Join(entries, ", ")
  }

  predicate CommaFree(ps: seq<Pillar>) {
    forall k :: 0 <= k < |ps| ==> ',' !in ps[k].name && ',' !in ps[k].description
  }

  lemma ChatEntriesCommaFree(ps: seq<Pillar>)
    requires CommaFree(ps)
    ensures forall k :: 0 <= k < |ps| ==> ", "[0] !in ChatPillarEntries(ps)[k]
  {
    var entries := ChatPillarEntries(ps);
    forall k | 0 <= k < |entries| ensures ", "[0] !in entries[k] {
      assert entries[k] == ps[k].name + " (" + ps[k].description + ")";
    }
  }

  /** The two prompts treat an empty description differently: only the plan prompt fills in
      the stock text. */
  lemma EmptyDescriptionRendering(n: string)
    ensures PlanPillarLine(Pillar(n, "")) == "- " + n + ": " + NoDetails
    ensures ChatPillarEntry(Pillar(n, "")) == n + " ()"
  {
  }

  const NoneProvided := "None provided."

  /** `profile.additionalInfo || "None provided."`, shared by both prompts. */
  function AdditionalContext(info: Option<string>): (r: string)
    ensures info.Some? && info.value != "" ==> r == info.value
    ensures info.None? || info.value == "" ==> r == NoneProvided
    ensures r != ""
  {
    match info
    case Some(text) => if text != "" then text else NoneProvided
    case None => NoneProvided
  }

  /** The script layout hint in the chat instruction. */
  function ScriptHint(platform: Platform): (r: string)
    ensures platform.YouTube? <==> r == "Hook, Intro, Value Props, CTA"
    ensures platform.Instagram? <==> r == "Visual Hook, Audio cue, Caption"
  {
    var youtube, other := "Hook, Intro, Value Props, CTA", "Visual Hook, Audio cue, Caption";
    assert youtube[0] != other[0];
    if platform.YouTube? then youtube else other
  }

  /** The model's completion: a response whose text may be missing, or a thrown error. */
  datatype Completion = Completed(text: Option<string>) | Thrown

  /** `generateWeeklyPlan`'s result handling. A missing or empty text throws "No response from
      AI" before anything is parsed; otherwise `parse` stands for `JSON.parse` and the read of
      its `plans` field, `None` when either fails. */
  function WeeklyPlanResult(c: Completion, parse: string -> Option<seq<PlanEntry>>): (r: Option<seq<PlanEntry>>)
    ensures c.Thrown? ==> r.None?
    ensures c.Completed? && (c.text.None? || c.text.value == "") ==> r.None?
    ensures r.Some? ==> c.Completed? && c.text.Some? && c.text.value != "" && r == parse(c.text.value)
    ensures c.Completed? && c.text.Some? && c.text.value != "" ==> r == parse(c.text.value)
  {
    match c
    case Thrown => None
    case Completed(text) =>
      match text
      case None => None
      case Some(t) => if t == "" then None else parse(t)
  }
}

=== FILE: settings.dfy ===
/** The settings panel: a draft copy of the profile that the panel's controls edit, handed to
    the application only by "Save Changes", which also closes the panel. */
module Settings {
  import opened Wrappers
  import opened Types
  import opened Text
  import opened Lists
  import opened Sorting
  import opened PostingDays
  import Pillars

  datatype View = View(draft: Profile, newPillarName: string, isOpen: bool)

  /** Opening the panel on a profile: the draft starts as that profile. */
  function Open(p: Profile): (v: View)
    ensures v.draft == p && v.newPillarName == "" && v.isOpen
  {
    View(p, "", true)
  }

  /** The four free-text fields of the draft. */
  datatype DraftEdit = EditName | EditPersona | EditVisualStyle | EditAdditionalInfo

  /** What a field's input box shows; missing extra notes show as empty. */
  function Shown(p: Profile, f: DraftEdit): string {
    match f
    case EditName => p.name
    case EditPersona => p.persona
    case EditVisualStyle => p.visualStyle
    case EditAdditionalInfo => if p.additionalInfo.Some? then p.additionalInfo.value else ""
  }

  /** Typing into one field replaces that field of the draft and nothing else. */
  function ApplyEdit(p: Profile, f: DraftEdit, value: string): (r: Profile)
    ensures Shown(r, f) == value
    ensures forall g :: g != f ==> Shown(r, g) == Shown(p, g)
    ensures f != EditAdditionalInfo ==> r.additionalInfo == p.additionalInfo
    ensures f == EditAdditionalInfo ==> r.additionalInfo == Some(value)
    ensures r.brandType == p.brandType && r.platform == p.platform && r.postingDays == p.postingDays
    ensures r.contentPillars == p.contentPillars && r.isOnboarded == p.isOnboarded
  {
    match f
    case EditName => p.(name := value)
    case EditPersona => p.(persona := value)
    case EditVisualStyle => p.(visualStyle := value)
    case EditAdditionalInfo => p.(additionalInfo := Some(value))
  }

  /** Edits of different fields do not interfere: their order does not matter. */
  lemma EditsCommute(p: Profile, f: DraftEdit, g: DraftEdit, a: string, b: string)
    requires f != g
    ensures ApplyEdit(ApplyEdit(p, f, a), g, b) == ApplyEdit(ApplyEdit(p, g, b), f, a)
  {
  }

  /** Only the last edit of a field counts. */
  lemma LastEditWins(p: Profile, f: DraftEdit, a: string, b: string)
    ensures ApplyEdit(ApplyEdit(p, f, a), f, b) == ApplyEdit(p, f, b)
  {
  }

  /** Typing back what a field showed restores the draft, except that missing extra notes become
      present and empty. */
  lemma EditBackRestores(p: Profile, f: DraftEdit)
    ensures f != EditAdditionalInfo || p.additionalInfo.Some? ==> ApplyEdit(p, f, Shown(p, f)) == p
    ensures f == EditAdditionalInfo && p.additionalInfo == None ==> ApplyEdit(p, f, Shown(p, f)) == p.(additionalInfo := Some(""))
  {
  }

  /** The day checkbox: membership flips and the list is re-sorted by the default sort. */
  function ToggleDay(v: View, i: int): (r: View)
    ensures r == v.(draft := v.draft.(postingDays := r.draft.postingDays))
    ensures i in r.draft.postingDays <==> i !in v.draft.postingDays
    ensures forall d :: d != i ==> (d in r.draft.postingDays <==> d in v.draft.postingDays)
    ensures Sorted(r.draft.postingDays)
  {
    v.(draft := v.draft.(postingDays := ToggleSorted(v.draft.postingDays, i)))
  }

  /** The typed pillar, under the same rule as the wizard's: trimmed, non-blank and new, or
      nothing happens; the box clears only on success. */
  function AddPillar(v: View): (r: View)
    ensures r.draft == v.draft.(contentPillars := Pillars.Add(v.draft.contentPillars, v.newPillarName))
    ensures r.newPillarName == (if IsBlank(v.newPillarName) || Pillars.HasName(v.draft.contentPillars, Trim(v.newPillarName)) then v.newPillarName else "")
    ensures r.isOpen == v.isOpen
  {
    if !IsBlank(v.newPillarName) && !Pillars.HasName(v.draft.contentPillars, Trim(v.newPillarName)) then
      v.(draft := v.draft.(contentPillars := Pillars.AddNamed(v.draft.contentPillars, Trim(v.newPillarName))), newPillarName := "")
    else v
  }

  /** Editing pillar `i`'s name or description in place. */
  function UpdatePillar(v: View, i: int, field: Pillars.Field, value: string): (r: View)
    requires 0 <= i < |v.draft.contentPillars|
    ensures r == v.(draft := v.draft.(contentPillars := r.draft.contentPillars))
    ensures |r.draft.contentPillars| == |v.draft.contentPillars|
    ensures forall k :: 0 <= k < |v.draft.contentPillars| && k != i ==> r.draft.contentPillars[k] == v.draft.contentPillars[k]
    ensures field == Pillars.Name ==> r.draft.contentPillars[i] == v.draft.contentPillars[i].(name := value)
    ensures field == Pillars.Description ==> r.draft.contentPillars[i] == v.draft.contentPillars[i].(description := value)
  {
    v.(draft := v.draft.(contentPillars := Pillars.Update(v.draft.contentPillars, i, field, value)))
  }

  /** The trash button of pillar `i`. */
  function RemovePillar(v: View, i: int): (r: View)
    requires 0 <= i < |v.draft.contentPillars|
    ensures r == v.(draft := v.draft.(contentPillars := r.draft.contentPillars))
    ensures multiset(r.draft.contentPillars) + multiset{v.draft.contentPillars[i]} == multiset(v.draft.contentPillars)
    ensures |r.draft.contentPillars| == |v.draft.contentPillars| - 1
    ensures forall k :: 0 <= k < |r.draft.contentPillars| ==> r.draft.contentPillars[k] == v.draft.contentPillars[if k < i then k else k + 1]
  {
    v.(draft := v.draft.(contentPillars := Pillars.Remove(v.draft.contentPillars, i)))
  }

  /** What a step hands to the application: the saved profile, if any. */
  datatype Outcome = Outcome(view: View, saved: Option<Profile>)

  /** "Save Changes": the draft goes to the application and the panel closes. */
  function HandleSave(v: View): (r: Outcome)
    ensures r.saved == Some(v.draft) && !r.view.isOpen && r.view.draft == v.draft
  {
    Outcome(v.(isOpen := false), Some(v.draft))
  }

  /** The panel's controls; a closed panel renders nothing, so events reach only an open one. */
  datatype Event =
    | TypeNewPillar(text: string)
    | ClickAddPillar
    | ClickDay(day: int)
    | EditPillar(index: int, field: Pillars.Field, value: string)
    | ClickRemovePillar(index: int)
    | Edit(f: DraftEdit, value: string)
    | ClickSave
    | ClickClose

  function Step(v: View, e: Event): (r: Outcome)
    ensures r.saved.Some? <==> v.isOpen && e.ClickSave?
    ensures r.saved.Some? ==> r.saved.value == v.draft
    ensures !v.isOpen ==> r == Outcome(v, None)
    ensures r.view.isOpen <==> v.isOpen && !e.ClickSave? && !e.ClickClose?
    ensures v.isOpen && e.TypeNewPillar? ==> r.view == v.(newPillarName := e.text)
    ensures v.isOpen && e.ClickAddPillar? ==> r.view == AddPillar(v)
    ensures v.isOpen && e.ClickDay? ==> r.view == (if IsDayIndex(e.day) then ToggleDay(v, e.day) else v)
    ensures v.isOpen && e.EditPillar? && 0 <= e.index < |v.draft.contentPillars| ==> r.view == UpdatePillar(v, e.index, e.field, e.value)
    ensures v.isOpen && e.ClickRemovePillar? && 0 <= e.index < |v.draft.contentPillars| ==> r.view == RemovePillar(v, e.index)
    ensures v.isOpen && e.Edit? ==> r.view == v.(draft := ApplyEdit(v.draft, e.f, e.value))
    ensures v.isOpen && e.ClickClose? ==> r.view == v.(isOpen := false)
  {
    if !v.isOpen then Outcome(v, None)
    else
      match e
      case TypeNewPillar(t) => Outcome(v.(newPillarName := t), None)
      case ClickAddPillar => Outcome(AddPillar(v), None)
      case ClickDay(d) => Outcome(if IsDayIndex(d) then ToggleDay(v, d) else v, None)
      case EditPillar(i, field, value) =>
        Outcome(if 0 <= i < |v.draft.contentPillars| then UpdatePillar(v, i, field, value) else v, None)
      case ClickRemovePillar(i) =>
        Outcome(if 0 <= i < |v.draft.contentPillars| then RemovePillar(v, i) else v, None)
      case Edit(f, value) => Outcome(v.(draft := ApplyEdit(v.draft, f, value)), None)
      case ClickSave => HandleSave(v)
      case ClickClose => Outcome(v.(isOpen := false), None)
  }

  datatype SessionResult = SessionResult(view: View, saved: seq<Profile>)

  /** A series of events, collecting what is saved. */
  function Session(v: View, events: seq<Event>): SessionResult
    decreases |events|
  {
    if |events| == 0 then SessionResult(v, [])
    else
      var o := Step(v, events[0]);
      var rest := Session(o.view, events[1..]);
      SessionResult(rest.view, (if o.saved.Some? then [o.saved.value] else []) + rest.saved)
  }

  /** Opening and saving straight away hands back the profile the panel was opened on. */
  lemma OpenThenSave(p: Profile)
    ensures Step(Open(p), ClickSave).saved == Some(p)
  {
  }

  /** What is typed reaches the saved profile: opening, editing a field and saving hands over
      the profile with exactly that edit. */
  lemma EditThenSave(p: Profile, f: DraftEdit, x: string)
    ensures Session(Open(p), [Edit(f, x), ClickSave]).saved == [ApplyEdit(p, f, x)]
  {
    var v := Step(Open(p), Edit(f, x)).view;
    assert [Edit(f, x), ClickSave][1..] == [ClickSave];
    assert [ClickSave][1..] == [];
    assert Step(v, ClickSave).saved == Some(ApplyEdit(p, f, x));
  }

  /** A closed panel saves nothing, whatever happens. */
  lemma {:induction false} ClosedSavesNothing(v: View, events: seq<Event>)
    requires !v.isOpen
    ensures Session(v, events) == SessionResult(v, [])
    decreases |events|
  {
    if |events| > 0 {
      ClosedSavesNothing(v, events[1..]);
    }
  }

  /** Saving closes the panel, so a session saves at most once. */
  lemma {:induction false} SavesAtMostOnce(v: View, events: seq<Event>)
    ensures |Session(v, events).saved| <= 1
    decreases |events|
  {
    if |events| > 0 {
      var o := Step(v, events[0]);
      if o.saved.Some? {
        ClosedSavesNothing(o.view, events[1..]);
      } else {
        SavesAtMostOnce(o.view, events[1..]);
      }
    }
  }

  predicate NoSave(events: seq<Event>) {
    forall k :: 0 <= k < |events| ==> !events[k].ClickSave?
  }

  /** Without "Save Changes" every edit is discarded: nothing reaches the application. */
  lemma {:induction false} UnsavedEditsDiscarded(v: View, events: seq<Event>)
    requires NoSave(events)
    ensures Session(v, events).saved == []
    decreases |events|
  {
    if |events| > 0 {
      UnsavedEditsDiscarded(Step(v, events[0]).view, events[1..]);
    }
  }

  /** The posting days are distinct weekday indices. */
  predicate DaysWellFormed(p: Profile) {
    AllDayIndices(p.postingDays) && Distinct(p.postingDays)
  }

  /** Every control keeps the draft's days distinct weekday indices. */
  lemma StepKeepsDays(v: View, e: Event)
    requires DaysWellFormed(v.draft)
    ensures DaysWellFormed(Step(v, e).view.draft)
  {
  }

  /** So every profile a session saves has distinct weekday indices, when the one it was opened
      on did. */
  lemma {:induction false} SavedDaysWellFormed(v: View, events: seq<Event>)
    requires DaysWellFormed(v.draft)
    ensures forall k :: 0 <= k < |Session(v, events).saved| ==> DaysWellFormed(Session(v, events).saved[k])
    decreases |events|
  {
    if |events| > 0 {
      var o := Step(v, events[0]);
      StepKeepsDays(v, events[0]);
      SavedDaysWellFormed(o.view, events[1..]);
    }
  }
}

=== FILE: sorting.dfy ===
/** `Array.prototype.sort()` called without a comparator, on arrays of integers: the
    elements are compared as the strings `String(n)`, code unit by code unit. */
module Sorting {

  function DigitChar(d: int): char
    requires 0 <= d < 10
  {
    (48 + d) as char
  }

  /** The decimal digits of `n`, most significant first. */
  function NatString(n: nat): (r: string)
    ensures |r| > 0
    decreases n
  {
    if n < 10 then [DigitChar(n)] else NatString(n / 10) + [DigitChar(n % 10)]
  }

  /** `String(n)` for an integer-valued number. */
  function NumberString(n: int): string {
    if n < 0 then "-" + NatString(-n) else NatString(n)
  }

  /** `a <= b` between two JavaScript strings: the first differing code unit decides, and a
      proper prefix comes first. */
  predicate LexLe(a: string, b: string)
    decreases |a|
  {
    |a| == 0 || (|b| > 0 && (if a[0] == b[0] then LexLe(a[1..], b[1..]) else a[0] < b[0]))
  }

  /** The order the default sort puts numbers in. */
  predicate DefaultLe(a: int, b: int) {
    LexLe(NumberString(a), NumberString(b))
  }

  predicate Sorted(s: seq<int>) {
    forall i, j :: 0 <= i < j < |s| ==> DefaultLe(s[i], s[j])
  }

  lemma {:induction false} LexLeTotal(a: string, b: string)
    ensures LexLe(a, b) || LexLe(b, a)
    decreases |a|
  {
    if |a| > 0 && |b| > 0 && a[0] == b[0] {
      LexLeTotal(a[1..], b[1..]);
    }
  }

  lemma {:induction false} LexLeTransitive(a: string, b: string, c: string)
    requires LexLe(a, b) && LexLe(b, c)
    ensures LexLe(a, c)
    decreases |a|
  {
    if |a| > 0 && a[0] == b[0] && b[0] == c[0] {
      LexLeTransitive(a[1..], b[1..], c[1..]);
    }
  }

  lemma DefaultLeTotal(a: int, b: int)
    ensures DefaultLe(a, b) || DefaultLe(b, a)
  {
    LexLeTotal(NumberString(a), NumberString(b));
  }

  lemma DefaultLeTransitive(a: int, b: int, c: int)
    requires DefaultLe(a, b) && DefaultLe(b, c)
    ensures DefaultLe(a, c)
  {
    LexLeTransitive(NumberString(a), NumberString(b), NumberString(c));
  }

  /** Putting in front an element that sorts before all others keeps a list sorted. */
  lemma SortedCons(x: int, s: seq<int>)
    requires Sorted(s)
    requires forall k :: 0 <= k < |s| ==> DefaultLe(x, s[k])
    ensures Sorted([x] + s)
  {
    var t := [x] + s;
    forall i, j | 0 <= i < j < |t| ensures DefaultLe(t[i], t[j]) {
      assert t[j] == s[j - 1];
      if i == 0 {
        assert t[i] == x;
      } else {
        assert t[i] == s[i - 1];
      }
    }
  }

  /** Inserts `x` after the elements that sort before it. */
  function Insert(x: int, s: seq<int>): (r: seq<int>)
    requires Sorted(s)
    ensures Sorted(r)
    ensures multiset(r) == multiset(s) + multiset{x}
    ensures forall k :: 0 <= k < |r| ==> r[k] == x || r[k] in s
    decreases |s|
  {
    if |s| == 0 then [x]
    else if DefaultLe(x, s[0]) then
      InsertFront(x, s);
      [x] + s
    else
      var t := Insert(x, s[1..]);
      InsertBehind(x, s, t);
      assert s == [s[0]] + s[1..];
      [s[0]] + t
  }

  lemma InsertFront(x: int, s: seq<int>)
    requires Sorted(s) && |s| > 0 && DefaultLe(x, s[0])
    ensures Sorted([x] + s)
  {
    forall k | 0 <= k < |s| ensures DefaultLe(x, s[k]) {
      if k > 0 { DefaultLeTransitive(x, s[0], s[k]); }
    }
    SortedCons(x, s);
  }

  lemma InsertBehind(x: int, s: seq<int>, t: seq<int>)
    requires Sorted(s) && |s| > 0 && !DefaultLe(x, s[0])
    requires Sorted(t)
    requires forall k :: 0 <= k < |t| ==> t[k] == x || t[k] in s[1..]
    ensures Sorted([s[0]] + t)
  {
    DefaultLeTotal(x, s[0]);
    forall k | 0 <= k < |t| ensures DefaultLe(s[0], t[k]) {
      if t[k] != x {
        var j :| 0 <= j < |s[1..]| && s[1..][j] == t[k];
        assert s[j + 1] == t[k];
      }
    }
    SortedCons(s[0], t);
  }

  /** The sorted permutation of `s` under the default order. */
  function DefaultSort(s: seq<int>): (r: seq<int>)
    ensures Sorted(r)
    ensures multiset(r) == multiset(s)
    decreases |s|
  {
    if |s| == 0 then []
    else
      assert s == [s[0]] + s[1..];
      Insert(s[0], DefaultSort(s[1..]))
  }

  /** For single-digit numbers (weekday indices among them) the string order is the
      numeric order. */
  lemma DigitOrderIsNumeric(a: int, b: int)
    requires 0 <= a < 10 && 0 <= b < 10
    ensures DefaultLe(a, b) <==> a <= b
  {
    var sa, sb := NumberString(a), NumberString(b);
    assert sa == [DigitChar(a)] && sb == [DigitChar(b)];
    assert sa[1..] == [] && sb[1..] == [];
    assert (DigitChar(a) < DigitChar(b)) <==> a < b;
    assert LexLe(sa[1..], sb[1..]);
    assert LexLe(sa, sb) <==> (if sa[0] == sb[0] then true else sa[0] < sb[0]);
  }

  /** Beyond one digit the two orders part: "10" sorts before "9". */
  lemma TenSortsBeforeNine()
    ensures DefaultLe(10, 9) && !(10 <= 9)
  {
    assert NatString(10) == NatString(1) + [DigitChar(0)];
  }

  /** So a default-sorted list of single-digit numbers is ascending. */
  lemma {:induction false} SortedDigitsAscend(s: seq<int>)
    requires Sorted(s)
    requires forall k :: 0 <= k < |s| ==> 0 <= s[k] < 10
    ensures forall i, j :: 0 <= i < j < |s| ==> s[i] <= s[j]
  {
    forall i, j | 0 <= i < j < |s| ensures s[i] <= s[j] {
      DigitOrderIsNumeric(s[i], s[j]);
    }
  }
}

=== FILE: text.dfy ===
/** String helpers with the semantics of the ECMAScript built-ins the application calls:
    `String.prototype.trim`, `Array.prototype.join`, and (as the partner of join) a split. */
module Text {
  import opened Wrappers

  /** The ECMAScript WhiteSpace and LineTerminator code points: exactly what `trim` strips
      (tab, LF, VT, FF, CR, space, NBSP, the Unicode Zs category, LS, PS and the BOM). */
  predicate IsWhitespace(c: char) {
    var n := c as int;
    n == 0x09 || n == 0x0A || n == 0x0B || n == 0x0C || n == 0x0D || n == 0x20 || n == 0xA0
    || n == 0x1680 || (0x2000 <= n <= 0x200A) || n == 0x2028 || n == 0x2029 || n == 0x202F
    || n == 0x205F || n == 0x3000 || n == 0xFEFF
  }

  predicate AllWhitespace(s: string) {
    forall i :: 0 <= i < |s| ==> IsWhitespace(s[i])
  }

  /** The number of whitespace characters `s` starts with. */
  function LeadingSpace(s: string): (n: nat)
    ensures n <= |s|
    ensures forall i :: 0 <= i < n ==> IsWhitespace(s[i])
    ensures n == |s| || !IsWhitespace(s[n])
    decreases |s|
  {
    if |s| > 0 && IsWhitespace(s[0]) then 1 + LeadingSpace(s[1..]) else 0
  }

  /** The number of whitespace characters `s` ends with. */
  function TrailingSpace(s: string): (n: nat)
    ensures n <= |s|
    ensures forall i :: |s| - n <= i < |s| ==> IsWhitespace(s[i])
    ensures n == |s| || !IsWhitespace(s[|s| - n - 1])
    decreases |s|
  {
    if |s| > 0 && IsWhitespace(s[|s| - 1]) then 1 + TrailingSpace(s[..|s| - 1]) else 0
  }

  /** `s.trim()`: the slice of `s` between the leading and the trailing whitespace. */
  function Trim(s: string): (r: string)
    ensures LeadingSpace(s) + |r| <= |s| && r == s[LeadingSpace(s)..LeadingSpace(s) + |r|]
    ensures forall i :: 0 <= i < LeadingSpace(s) ==> IsWhitespace(s[i])
    ensures forall i :: LeadingSpace(s) + |r| <= i < |s| ==> IsWhitespace(s[i])
    ensures r == [] || (!IsWhitespace(r[0]) && !IsWhitespace(r[|r| - 1]))
  {
    var a := LeadingSpace(s);
    var t := s[a..];
    var b := TrailingSpace(t);
    assert forall i :: 0 <= i < |t| ==> t[i] == s[a + i];
    t[..|t| - b]
  }

  /** JavaScript truthiness of `s.trim()`: false exactly when nothing but whitespace remains. */
  predicate IsBlank(s: string) {
    Trim(s) == []
  }

  /** A string is blank exactly when every one of its characters is whitespace. */
  lemma {:induction false} BlankIffAllWhitespace(s: string)
    ensures IsBlank(s) <==> AllWhitespace(s)
  {
    if Trim(s) != [] {
      assert Trim(s)[0] == s[LeadingSpace(s)];
    }
  }

  /** Trimming is idempotent. */
  lemma TrimIdempotent(s: string)
    ensures Trim(Trim(s)) == Trim(s)
  {
  }

  /** `parts.join(sep)`: the parts in order with `sep` between neighbours. */
  function Join(parts: seq<string>, sep: string): (r: string)
    ensures |parts| == 1 ==> r == parts[0]
  {
    if |parts| == 0 then "" else if |parts| == 1 then parts[0] else parts[0] + sep + Join(parts[1..], sep)
  }

  /** `sep` occurs in `s` starting at index `i`. */
  predicate OccursAt(s: string, sep: string, i: int) {
    0 <= i <= |s| && sep <= s[i..]
  }

  /** The index of the first occurrence of `sep` in `s`, if any. */
  function Find(s: string, sep: string): (r: Option<nat>)
    requires |sep| > 0
    ensures r.Some? ==> OccursAt(s, sep, r.value)
    ensures r.Some? ==> forall i :: 0 <= i < r.value ==> !OccursAt(s, sep, i)
    ensures r.None? ==> forall i :: !OccursAt(s, sep, i)
    decreases |s|
  {
    if |s| < |sep| then None
    else if sep <= s then Some(0)
    else
      var r := Find(s[1..], sep);
      assert forall i :: 1 <= i ==> (OccursAt(s, sep, i) <==> OccursAt(s[1..], sep, i - 1)) by {
        forall i | 1 <= i <= |s| ensures s[i..] == s[1..][i - 1..] { }
      }
      match r
      case None => None
      case Some(k) => Some(k + 1)
  }

  /** Cuts `s` at every occurrence of `sep`, left to right: the inverse of `Join`. */
  function Split(s: string, sep: string): (r: seq<string>)
    requires |sep| > 0
    ensures |r| > 0
    decreases |s|
  {
    match Find(s, sep)
    case None => [s]
    case Some(k) => [s[..k]] + Split(s[k + |sep|..], sep)
  }

  /** A part that does not contain the first character of the separator hides no separator. */
  lemma {:induction false} FindNone(p: string, sep: string)
    requires |sep| > 0 && sep[0] !in p
    ensures Find(p, sep) == None
    decreases |p|
  {
    if |p| >= |sep| {
      assert p[..|sep|][0] == p[0];
      FindNone(p[1..], sep);
    }
  }

  /** The first separator after such a part is the one `Join` put there. */
  lemma {:induction false} FindAfterPart(p: string, sep: string, rest: string)
    requires |sep| > 0 && sep[0] !in p
    ensures Find(p + sep + rest, sep) == Some(|p|)
    decreases |p|
  {
    var s := p + sep + rest;
    if |p| == 0 {
      assert s[..|sep|] == sep;
    } else {
      assert s[..|sep|][0] == p[0];
      assert s[1..] == p[1..] + sep + rest;
      FindAfterPart(p[1..], sep, rest);
    }
  }

  /** Round trip: splitting a join at its separator gives the parts back, provided no part
      contains the separator's first character. */
  lemma {:induction false} SplitJoin(parts: seq<string>, sep: string)
    requires |parts| > 0 && |sep| > 0
    requires forall i :: 0 <= i < |parts| ==> sep[0] !in parts[i]
    ensures Split(Join(parts, sep), sep) == parts
    decreases |parts|
  {
    if |parts| == 1 {
      FindNone(parts[0], sep);
    } else {
      var rest := Join(parts[1..], sep);
      var s := parts[0] + sep + rest;
      FindAfterPart(parts[0], sep, rest);
      assert s[..|parts[0]|] == parts[0];
      assert s[|parts[0]| + |sep|..] == rest;
      SplitJoin(parts[1..], sep);
      assert [parts[0]] + parts[1..] == parts;
    }
  }
}

=== FILE: types.dfy ===
/** The records of the application. Calendar dates are day numbers: day 0 is a Sunday, and
    the weekday of day `n` is `n % 7`. */
module Types {
  import opened Wrappers

  datatype BrandType = Personal | Company

  datatype Platform = YouTube | Instagram

  /** A content pillar: a recurring format and how it is executed. */
  datatype Pillar = Pillar(name: string, description: string)

  /** The brand profile. `additionalInfo` is optional: profiles may lack it, and both
      prompts treat a missing and an empty value alike. */
  datatype Profile = Profile(
    name: string,
    brandType: BrandType,
    platform: Platform,
    postingDays: seq<int>,
    contentPillars: seq<Pillar>,
    persona: string,
    visualStyle: string,
    additionalInfo: Option<string>,
    isOnboarded: bool)

  /** A calendar date, as a day number. */
  type Day = int

  /** One day of the week's plan; the date is its identity. `isPosted` may be absent. */
  datatype DayPlan = DayPlan(date: Day, theme: string, description: string, isPosted: Option<bool>)

  /** One entry of the structured plan the language model returns. */
  datatype PlanEntry = PlanEntry(dayOffset: int, theme: string, description: string)

  datatype Role = User | Model

  /** Message ids: the fixed id of the greeting, or a millisecond clock reading. */
  datatype MessageId = Init | Stamp(ms: int)

  datatype ChatMessage = ChatMessage(id: MessageId, role: Role, text: string)
}

=== FILE: wrappers.dfy ===
/** Failure-carrying datatypes shared by the whole model. */
module Wrappers {

  /** A value that may be absent: `undefined`/`null` in the application. */
  datatype Option<+T> = None | Some(value: T)

  /** The outcome of an operation that can throw. */
  datatype Result<+T, +E> = Ok(value: T) | Err(error: E)
}
